=== FILE: README.md ===
# Payment engine with one-time codes: a Dafny model

This project models the core of a small peer-to-peer payment service. The
Express server (`server.js`) moves money between accounts. A sender can pay
directly (`/api/send-payment`) or in two steps: `/api/request-otp` issues a
six-digit one-time code that expires five minutes later, and
`/api/verify-otp` accepts the code and performs the transfer. Three wrong
codes inside five minutes lock the account. The server pushes events
(`otp_generated`, `otp_lockout`, `payment_success`, `payment_received`) to
each account's single open event stream.

The ledger store (`database.js`) holds the users and transactions tables.
The OTP table and the attempt log are used through the same connection. The
dashboard client (`public/js/dashboard.js`) has a recipient search, the
statistics cards and relative date labels.

Money is an integer number of centavos. Time is an integer number of
milliseconds, passed in as `now`. A transaction row carries the `now` of the
request that wrote it. In the source, the database stamps the row itself with
UTC text in whole seconds, and the browser reads that text as local time; see
"## Left out".

Modules:

- `Common`: option type, `First` (the first matching row, as `db.get`
  returns it), `Filter` (`Array.prototype.filter` and `WHERE`), and
  subsequences.
- `Sorting`: insertion sort, largest key first, used for `ORDER BY ... DESC`.
- `Store`: the row types, the tables as one `Tables` value, and the `SELECT`
  queries as functions.
  - The class `Database` holds the tables as fields.
  - Its methods are the `UPDATE`/`INSERT`/`DELETE` statements and
    `BEGIN`/`COMMIT`/`ROLLBACK`. A transaction is a saved copy of the tables.
- `OtpCode`: `generateOTP` as a nondeterministic draw in 100000..999999,
  with its decimal rendering.
- `Throttle`: `OTP_CONFIG`, `isUserLockedOut` and the `/api/otp-status`
  report.
- `Notify`: the `sseClients` map and `sendSSENotification`, as the class
  `Registry`.
- `Payments`: the endpoints as pure decisions.
  - The validation chains come first.
  - For each endpoint, a function gives the new tables, the events written,
    and the reply.
  - It also holds transaction formatting and the invariant `Good`: unique
    ids and emails, no negative balance, well-formed challenges, and a
    well-formed ledger.
- `PaymentLemmas`: properties proved about those functions, as lemmas.
  - money is conserved, for an amount that arrives as a number (a string
    amount breaks it; see "## Findings");
  - `Good` is preserved;
  - a code pays at most once;
  - wrong codes count down to a lockout;
  - an end-to-end payment scenario.
- `Server`: the class `PaymentServer` over a `Database` and a `Registry`.
  - Each handler runs the source's statements in the source's order; for
    example, request-OTP draws the code only once every check has passed.
  - Each is proved to end in the state, events and reply that its `Payments`
    function gives.
- `BodyAmount`: the send-payment amount as the JavaScript value the body
  parser delivers, a number or a string, with JavaScript's truthiness,
  conversion and `+`. It shows what a string amount does to the balances, and
  gives the intended credit.
- `Dashboard`: the pure client helpers and the class `DashboardApp`, whose
  fields the handlers overwrite.

Three behaviours of the code are easy to misread; the model keeps each as
written:

- **A consumed challenge stays consumed.** One would expect a failed
  transfer to leave the challenge unverified, so that the user may retry.
  The code marks it verified (server.js:483) before the balance re-check
  and before the transfer unit. A failed re-check, a missing party, or a rolled-back
  unit therefore leaves the challenge consumed (`PaymentLemmas.VerifyOtpEffect`).
- **The re-check at verification is partial.** One would expect every
  transfer precondition to be checked again when the code is verified. The
  code only looks up both parties again and compares the balance
  (server.js:486-500). It does not re-check `payer != payee` or
  `amount > 0`.
  - The model proves that these still hold: every OTP row keeps them as part
    of the invariant `Good`, because request-OTP establishes them when it
    writes the row.
- **Lockout length.** The lock is computed from the attempt log at each
  call. The counting window (5 minutes) is shorter than the lockout
  (10 minutes), so the "10 minutes after the newest failure" test never
  decides anything.
  - An account is locked exactly when three failures are in the window
    (`Throttle.LockedIffThreeRecent`).
  - The lock lifts as soon as the third-newest failure leaves the window,
    5 minutes after it was logged, not 10 minutes after the newest one
    (`Throttle.LockLiftsWithWindow`).
  - This is kept as written and documented by these lemmas.

## Model

| member | source | states |
|---|---|---|
| OtpCode.GenerateOtp | server.js:84-86 | the code is the decimal rendering of a number in 100000..999999: six digits, the first not zero |
| OtpCode.DecimalRoundTrip | server.js:85 | reading back the rendered number gives the number |
| OtpCode.DecimalLength | server.js:85 | a number with k decimal digits renders to exactly k characters |
| OtpCode.NoLeadingZero | server.js:85 | a positive number renders without a leading zero |
| Throttle.MinutesRoundedUp | server.js:98 | `Math.ceil(ms / 60000)`: the least number of whole minutes covering `ms`, at least 1 |
| Throttle.RecentFailuresExact | server.js:89-90 | exactly the user's failed attempts of the last 5 minutes, newest first |
| Throttle.IsUserLockedOut | server.js:89-104 | locked iff at least 3 failures of the user are in the 5-minute window and `now` is before the newest one plus 10 minutes; `minutesLeft` is the rest rounded up |
| Throttle.LockedIffThreeRecent | server.js:89-104 | because the window is shorter than the lockout, locked iff at least 3 failures are in the window |
| Throttle.LockMinutesBounds | server.js:89-104 | with no attempt logged in the future, a lock reports between 6 and 10 minutes |
| Throttle.RecentAfterLogging | server.js:454-458 | logging an attempt adds one to the recent failures exactly when it is a failure of that user inside the window |
| Throttle.NoneRecentWithoutFailures | server.js:90 | an account with no logged failure has no recent failure |
| Throttle.LockedAtThirdFailure | server.js:89-104 | three failures at one instant lock the account at that instant for the full 10 minutes |
| Throttle.LockLiftsWithWindow | server.js:90-101 | the same three failures no longer lock the account 6 minutes later |
| Throttle.OtpStatus | server.js:564-593 | `locked` and `lockoutMinutes` are those of `isUserLockedOut` (0 when unlocked); attempts left is `max(0, 3 - recent failures)`, so 0 iff locked; `hasActiveOTP` iff an unverified, unexpired challenge of the user exists; the config block is 3, 10 and 5 |
| Store.GetUserById | database.js:47-49 | a found row is in the table and has the id; nothing is found iff no row has the id |
| Store.GetUserByEmail | database.js:43-45 | a found row is in the table and has the email; nothing is found iff no row has the email |
| Store.GetUserByIdUnique | database.js:47-49 | with unique ids, looking up a row's id returns exactly that row |
| Store.GetUserByEmailUnique | database.js:43-45 | with unique emails, looking up a row's email returns exactly that row |
| Store.GetAllUsers | database.js:84-86 | one row per user, in table order, with every column except the password |
| Store.JoinParties | database.js:74-76 | the inner join yields a row iff both parties exist, carrying the transaction's id, amount, status and time and the sender's and the receiver's own name and email |
| Store.Candidates | database.js:63-77 | exactly the joined rows of the transactions where the user is sender or receiver |
| Store.HistoryIsNewestFifty | database.js:63-82 | the history of `getTransactionsByUserId`: as many rows as the user's transactions up to 50, only the user's own transactions, each at most as often as it occurs among them, newest first, and no omitted row is newer than the last one returned |
| Store.GetTransactionsByUserId | database.js:63-82 | at most 50 rows, newest first; what the rows are (the user's own, none repeated beyond its count, the newest ones) is stated by `Store.HistoryIsNewestFifty` |
| Store.GetOtpById | server.js:427 | a found row is in the table and has the id; nothing is found iff no row has the id |
| Store.GetRecentFailedAttempts | server.js:90-93 | exactly the user's failures inside the window, newest first, so the first is the latest |
| Store.GetActiveOtpByUserId | server.js:572 | a found challenge belongs to the user, is unverified and has not expired; nothing is found iff the user has no such challenge |
| Store.SetBalance | database.js:51-53 | only the balance of the rows with the id changes, to the new value; every other row and field is unchanged |
| Store.TotalAfterSetBalance | database.js:51-53 | with unique ids, the sum of balances moves by exactly the change of the updated row |
| Store.SetBalanceAbsent | database.js:51-53 | updating an id that no row has changes nothing |
| Store.MarkVerified | server.js:483 | only the rows with the id become verified; everything else is unchanged |
| Store.LinkTransaction | server.js:520 | only the rows with the id get the transaction id; everything else is unchanged |
| Store.Database.UpdateUserBalance | database.js:51-53 | the users table becomes `SetBalance` of the old one; no other table changes |
| Store.Database.InsertTransaction | database.js:56-61 | appends one row with the given sender, receiver, amount and status and returns its fresh id; existing rows are unchanged |
| Store.Database.InsertOtp | server.js:372 | appends one unverified, unlinked challenge under a fresh id and returns the id |
| Store.Database.VerifyOtp | server.js:483 | marks the challenge verified; no other table changes |
| Store.Database.UpdateOtpTransactionId | server.js:520 | links the challenge to the transaction; no other table changes |
| Store.Database.InsertOtpAttempt | server.js:447 | appends one record to the attempt log; no other table changes |
| Store.Database.CleanupExpiredOtps | server.js:115-122 | deletes exactly the unverified challenges past expiry |
| Store.Database.Begin | server.js:281 | records the current tables as the savepoint and changes nothing |
| Store.Database.Commit | server.js:294 | keeps every change and drops the savepoint |
| Store.Database.Rollback | server.js:297 | every table and id counter returns to its state at `Begin` |
| Store.LookupAfterMark | server.js:483 | after `verifyOTP(id)` the lookup of the id finds the same row, now verified |
| Store.LookupAfterLink | server.js:520 | after the link the lookup finds the same row, now carrying the transaction id |
| Store.LookupInserted | server.js:372 | a row inserted under a fresh id is what the lookup of that id returns |
| Store.SweepKeepsRedeemable | server.js:115-122 | the sweep never deletes a challenge that a later verification would still accept as unexpired |
| Sorting.SortDesc | database.js:78 | the result is sorted newest first and is a permutation of the input |
| Notify.Deliveries | server.js:107-112 | nothing is written iff the account has no stream; otherwise one message to that stream |
| Notify.Registry.constructor | server.js:72 | an empty map with nothing written |
| Notify.Registry.Connect | server.js:748 | the account's entry becomes the new stream, replacing any earlier one, and the `connected` message is written to it |
| Notify.Registry.Send | server.js:107-112 | the map is unchanged and `Deliveries` is appended to what has been written |
| Notify.Registry.Disconnect | server.js:760-762 | as written: the account's entry is removed, whichever stream closed |
| Notify.Registry.DisconnectChannel | server.js:760-762 | as intended: the entry is removed only if it is still the stream that closed |
| Notify.StaleCloseDropsLiveStream | server.js:748-762 | two tabs, then the older tab closes: the live newer stream is gone from the map |
| Notify.StaleCloseKeepsLiveStream | server.js:748-762 | the same sequence with the corrected handler keeps the newer stream |
| BodyAmount.AmountCheck | server.js:242-276 | for two found, distinct parties: passes iff the email is non-empty, the amount truthy, and its numeric value positive and at most the balance; missing fields iff the email is empty or the amount falsy |
| BodyAmount.NumberCheckIsModel | server.js:242-276 | on a JSON number, the amount tests are `Payments.FieldsCheck` followed by the balance test |
| BodyAmount.SendAsWritten | server.js:238-288 | moves the balances iff the amount tests pass, refusing with their failure otherwise; the debit subtracts the amount's numeric value |
| BodyAmount.StringCreditAppends | server.js:288 | `receiver.balance + amount` on a string of digits `s`, stored in the `REAL` column, is `balance * 10^|s| + s` |
| BodyAmount.StringAmountCreatesMoney | server.js:284-288 | a string amount that passes the tests raises the total of the two balances by `b * (10^|s| - 1)`, where `b` is the receiver's balance, so any positive receiver balance creates money |
| BodyAmount.FormPostOfHundred | server.js:238-288 | the form post `amount=100` from 10000 to 3000 leaves 9900 and 3000100 |
| BodyAmount.ZeroTextIsNonPositive | server.js:242-248 | the text `"0"` is refused as a non-positive amount, the number 0 as a missing field |
| BodyAmount.SendIntended | server.js:282-289 | moves iff the amount tests pass; then the payer loses and the payee gains exactly the amount's numeric value, and the total is kept |
| BodyAmount.NumbersAreIntended | server.js:282-289 | on a JSON number the code as written and the intended step agree |
| Payments.FieldsCheck | server.js:242-248 | missing fields iff the email is empty or the amount is 0; non-positive iff the amount is negative; passes iff the email is non-empty and the amount positive |
| Payments.PartiesCheck | server.js:252-275 | each refusal (sender missing, receiver missing, self-transfer, insufficient balance with both figures) holds iff its condition holds and the earlier ones do not; clears iff all pass, with the looked-up rows |
| Payments.SendPaymentCheck | server.js:242-275 | field failures first, then the party checks; a cleared payment has `0 < amount <= balance` |
| Payments.RequestOtpCheck | server.js:323-365 | field failures, then the lockout, then the party checks, in that order; a cleared request is unlocked and covered by the balance |
| Payments.VerifyCheck | server.js:411-452 | each outcome (missing fields, locked, not found, forbidden, already used, expired only when `now > expiresAt`, wrong code, accepted) holds iff its condition holds and the earlier ones do not |
| Payments.RedeemCheck | server.js:486-500 | user not found iff either party is missing; insufficient balance iff both exist and the balance is short; cleared otherwise, with the two looked-up rows |
| Payments.HttpStatus | server.js:243-559 | 429 for the two lock refusals, 404 for the four not-found ones, 403 for a foreign challenge, 500 for a failed unit, 400 for every other refusal |
| Payments.Transferred | server.js:503-528 | the users table keeps its size, the ledger gains exactly one row under the next id, the attempt log is untouched, and the challenges change only when one is linked |
| Payments.SendPaymentOutcome | server.js:238-316 | no event is written; a refusal leaves every table as it was; a payment appends one ledger row and leaves challenges and attempts alone, with no transaction id in the reply |
| Payments.DirectTransfer | server.js:278-311 | pays iff the unit commits; a rolled-back unit changes nothing and answers with the generic failure; the receipt carries the sender's new balance |
| Payments.RequestOtpOutcome | server.js:319-403 | issues iff the checks clear; a refusal writes nothing and returns the check's failure; an issued challenge has the next id and the drawn code, expires in 5 minutes, is the only new row, is active for the sender, and no money moves |
| Payments.VerifyOtpOutcome | server.js:406-561 | a payment happens only for the caller's own unverified, unexpired challenge whose code is the one submitted; a refusal moves no money |
| Payments.Redeem | server.js:486-555 | pays iff the re-check clears and the unit commits; otherwise the consumed tables stay as they are and nothing is written |
| Payments.Settled | server.js:503-555 | the reply carries the id of the one new ledger row; one notification per connected party |
| Payments.FormatTransaction | server.js:603-612 | `sent` iff the sender email is the session's; the other party is the receiver for sent rows and the sender otherwise; id, amount, status and time are copied |
| Payments.FormatTransactions | server.js:600-614 | one formatted row per history row, in order |
| Payments.FormatFollowsLedger | server.js:600-612 | with unique emails and the session's own email, a row reads `sent` iff the user is the sender, and the other party is the counterparty's name and email, never the user's |
| Payments.TransactionHistory | server.js:596-614 | as many rows as the user's transactions up to 50, newest first, each the formatting of one of the user's joined rows, and the whole list the formatting of rows drawn from those joined rows, each at most as often as it occurs among them |
| PaymentLemmas.TransferConserves | server.js:278-301 | a transfer between two different accounts leaves the sum of all balances unchanged |
| PaymentLemmas.MoveConserves | server.js:284-289 | the debit followed by the credit leaves the sum of balances unchanged |
| PaymentLemmas.TransferBalances | server.js:284-292 | the payer's row loses the amount, the payee's gains it, all other rows are unchanged |
| PaymentLemmas.TransferKeepsGood | server.js:503-528 | a transfer the balance check admitted keeps the invariant: no balance goes negative and the new ledger row is a completed positive transfer |
| PaymentLemmas.TransferLookups | server.js:284-289 | after the transfer, looking up either party finds its row with the new balance |
| PaymentLemmas.SendPaymentPreserves | server.js:238-316 | send-payment keeps the invariant and the sum of all balances |
| PaymentLemmas.SendPaymentRefusal | server.js:242-316 | pays iff every check passes and the unit commits; any refusal or rolled-back unit changes no table; no event is written |
| PaymentLemmas.SendPaymentEffect | server.js:278-311 | a payment debits the sender, credits the receiver, appends one completed row between them, reports the sender's new balance, and leaves the challenges and the attempt log alone |
| PaymentLemmas.SendPaymentTransfers | server.js:278-311 | a paid send-payment ends in exactly the committed transfer between the cleared rows, with the matching receipt |
| PaymentLemmas.RequestOtpEffect | server.js:323-398 | moves no money and logs nothing; on a refusal writes nothing; otherwise appends one fresh unverified challenge for that receiver and amount, expiring 5 minutes later, and announces it on the sender's stream |
| PaymentLemmas.RequestOtpPreserves | server.js:353-372 | request-OTP keeps the invariant |
| PaymentLemmas.RedeemPreserves | server.js:486-528 | redeeming a consumed challenge keeps the invariant and the sum of balances |
| PaymentLemmas.VerifyOtpPreserves | server.js:406-561 | verify-OTP keeps the invariant and the sum of all balances |
| PaymentLemmas.AcceptedPreserves | server.js:479-528 | consuming an accepted challenge and redeeming it keeps the invariant and the sum of balances |
| PaymentLemmas.VerifyOtpEffect | server.js:443-528 | early refusals write nothing; expired or wrong codes only log a failure; an accepted code logs a success and consumes the challenge whatever follows; a payment appends exactly the challenge's transfer, linked to it |
| PaymentLemmas.RedeemEffect | server.js:486-555 | a refusal after consumption writes nothing more; a payment appends the challenge's transfer, links it, and reports its id |
| PaymentLemmas.ConsumedChallengeNeverPays | server.js:439-441 | a verification of a consumed challenge is refused and changes nothing |
| PaymentLemmas.SecondVerifyRefused | server.js:439-483 | after any verification that accepted a code, every later verification of that challenge is refused and changes nothing |
| PaymentLemmas.WrongCodeCountsDown | server.js:452-476 | a wrong code logs one failure and answers `3 - recent` attempts left; the third locks the account for 10 minutes, publishes `otp_lockout`, and leaves the account locked |
| PaymentLemmas.WrongCodeStep | server.js:452-476 | the exact outcome of a wrong code for a live challenge while fewer than 3 failures are recent |
| PaymentLemmas.StatusAgreesWithWrongCode | server.js:452-476 | right after a wrong code, `/api/otp-status` reports the same attempts left as the reply, or the lock with its full 10 minutes |
| PaymentLemmas.ThreeWrongCodesLock | server.js:417-476 | three wrong codes within 5 minutes answer 2 left, 1 left, then the 10-minute lock; a fourth try with the right code is refused as locked |
| PaymentLemmas.LockedRefusesEverything | server.js:417-424 | while locked, every well-formed submission is refused as locked and changes nothing |
| PaymentLemmas.PaymentScenario | server.js:319-561 | 10000 and 3000, a code requested for 500 and submitted in time: the code is issued, the payment succeeds, the balances become 9500 and 3500, and one completed row is appended |
| PaymentLemmas.ScenarioBalances | server.js:508-514 | moving 500 from 10000 to 3000 leaves 9500 and 3500 |
| Server.UnitComposes | server.js:503-528 | the two balance updates followed by the ledger insert and link make up exactly one `Transferred` step |
| Server.PaymentServer.TransferUnit | server.js:503-528 | when nothing throws, the tables become the committed transfer and the new id is returned; when a statement throws, every table is as before |
| Server.PaymentServer.UnitStatements | server.js:506-522 | throws iff one of its statements fails; otherwise the tables are the transfer of the unit |
| Server.PaymentServer.MoveFunds | server.js:508-514 | throws iff a balance update fails; otherwise only the two balances change |
| Server.PaymentServer.RecordTransfer | server.js:516-520 | throws iff the insert or the link fails; otherwise one row is appended and the challenge is linked to it |
| Server.PaymentServer.CheckSendPayment | server.js:242-275 | returns the send-payment decision over the live users and changes nothing |
| Server.PaymentServer.CheckParties | server.js:252-275 | returns the party checks over the live users and changes nothing |
| Server.PaymentServer.SendPayment | server.js:238-316 | ends in the tables and reply of `SendPaymentOutcome` and keeps `Valid` |
| Server.PaymentServer.HandleSendPayment | server.js:242-311 | the handler's statements end in `SendPaymentOutcome` |
| Server.PaymentServer.PayDirectly | server.js:278-311 | the unit and the receipt end in `DirectTransfer` |
| Server.PaymentServer.CheckRequestOtp | server.js:323-365 | returns the request-OTP decision over the live tables and changes nothing |
| Server.PaymentServer.RequestOtp | server.js:319-403 | draws the code only after the checks pass; with that code, ends in the tables, events and reply of `RequestOtpOutcome` and keeps `Valid` |
| Server.PaymentServer.CheckVerifyOtp | server.js:411-452 | returns the verify-OTP decision over the live tables and changes nothing |
| Server.PaymentServer.VerifyOtp | server.js:406-561 | ends in the tables, events and reply of `VerifyOtpOutcome` and keeps `Valid` |
| Server.PaymentServer.HandleVerifyOtp | server.js:411-555 | the handler's statements end in `VerifyOtpOutcome` |
| Server.PaymentServer.RecordExpired | server.js:443-449 | an expired code logs the failure and ends in `VerifyOtpOutcome` |
| Server.PaymentServer.RecordWrongCode | server.js:452-476 | a wrong code logs the failure, counts the window and ends in `VerifyOtpOutcome` |
| Server.PaymentServer.Consume | server.js:479-483 | an accepted code logs a success, consumes the challenge and ends in `VerifyOtpOutcome` |
| Server.PaymentServer.CheckRedeem | server.js:486-500 | returns the re-check over the live users and changes nothing |
| Server.PaymentServer.RedeemOtp | server.js:486-555 | the re-checks, unit and notifications end in `Redeem` |
| Server.PaymentServer.Settle | server.js:503-543 | a committed unit ends in `Settled` with both notifications; a rolled-back one changes nothing and answers with a generic failure |
| Server.PaymentServer.Announce | server.js:530-543 | writes `payment_success` to the caller's stream, then `payment_received` to the payee's |
| Server.PaymentServer.SweepExpiredOtps | server.js:115-122 | deletes exactly the expired, unverified challenges and keeps `Valid` |
| Dashboard.LowerChar | public/js/dashboard.js:99 | an ASCII capital becomes the letter 32 code points later; every other character is kept; so the result is never a capital |
| Dashboard.Lower | public/js/dashboard.js:99 | same length, each character folded by `LowerChar`, no capital left |
| Dashboard.LowerIdempotent | public/js/dashboard.js:99 | folding twice is folding once |
| Dashboard.IncludesIff | public/js/dashboard.js:105-108 | `includes` holds iff the query occurs at some position |
| Dashboard.Suggestions | public/js/dashboard.js:98-109 | at most 5 users; none for a query shorter than 2; each is a loaded user whose folded email or name contains the folded query |
| Dashboard.SuggestionsInOrder | public/js/dashboard.js:105-108 | suggestions keep the order of the loaded user list |
| Dashboard.SuggestionsComplete | public/js/dashboard.js:105-108 | fewer than 5 suggestions for a long enough query means every matching user is listed |
| Dashboard.SuggestionsKeepFirst | public/js/dashboard.js:104-108 | a matching user with fewer than 5 matches before it is suggested, at the position given by that count: the first five matches are kept |
| Dashboard.PickedEmailMatches | public/js/dashboard.js:111-115 | the email that `selectUser` fills in is a query that matches that user |
| Dashboard.Midnight | public/js/dashboard.js:175-177 | the local midnight that starts the day of `t`: a whole number of days after the epoch in local time (`(m + offset) % DAY_MS == 0`), namely the start of `t`'s local day, and at most one day before `t` |
| Dashboard.SameMidnight | public/js/dashboard.js:206-211 | two instants have the same local midnight iff they fall on the same local day |
| Dashboard.ReceivedTotalAppend | public/js/dashboard.js:205-218 | the received total of a concatenation is the sum of the parts' totals |
| Dashboard.SentOnWithinSent | public/js/dashboard.js:205-218 | with non-negative amounts, today's sent total lies between 0 and the sent total |
| Dashboard.ReceivedOnlyMovesReceived | public/js/dashboard.js:205-218 | one more received transaction leaves today's sent total alone and adds its amount to the received total |
| Dashboard.DashboardApp.constructor | public/js/dashboard.js:1-60 | the component's initial fields |
| Dashboard.DashboardApp.SearchUsers | public/js/dashboard.js:98-109 | `filteredUsers` becomes `Suggestions` of the search box; nothing else changes |
| Dashboard.DashboardApp.SelectUser | public/js/dashboard.js:111-115 | the search box becomes the user's email, suggestions are hidden and emptied; nothing else changes |
| Dashboard.DashboardApp.CalculateStats | public/js/dashboard.js:174-225 | sent today is the total of the `sent` rows on today's local date, received is the total of the `received` rows, and the count is the number of rows |
| Dashboard.DashboardApp.ClosePaymentModal | public/js/dashboard.js:478-486 | hides the modal, clears the amount, resets the recipient to `{null, '', ''}`, and keeps `sending` |
| Dashboard.FormatDate | public/js/dashboard.js:555-567 | "Just now" iff under 1 minute has elapsed (or the date is in the future); minutes iff 1 minute to under 1 hour; hours iff 1 hour to under 1 day; days iff 1 to under 7 days; the date otherwise; each count is the elapsed time in whole units, floored |
| Dashboard.LabelsAreDistinct | public/js/dashboard.js:563-566 | two equal label texts come from the same label and count |
| Dashboard.Label | public/js/dashboard.js:564-568 | no text exactly for the dated label; "Just now"; a counted label is the count's digits, the unit letter and " ago" |
| Dashboard.LabelsOnlyAge | public/js/dashboard.js:555-567 | as the clock advances, a date's label never moves back to a newer kind |

## Left out

- HTTP routing, sessions, authentication, login and logout, and profile endpoints (server.js:1-69, 127-235): framework and bcrypt calls. The session's user id and email are parameters.
- The `/api/users` handler that removes the caller from the list (server.js:225-235): routing; `DashboardApp.allUsers` is whatever was loaded.
- QR code generation and decoding (server.js:622-737): foreign libraries.
- `getLocalNetworkIP` (server.js:32-43): OS I/O.
- Event stream headers, the keep-alive timer and the five-minute sweep timer (server.js:115-122, 740-766): timers and streams. The registry map, the `connected` message and the sweep itself are modelled.
- `db.serialize` and interleavings of concurrent requests (server.js:279, 504): each request is one atomic step of the model.
- `REAL` balances and `parseFloat` amounts: money is an integer number of centavos.
- The reply to a failing read query (the 500 responses of each handler's `catch`) and a failing `ROLLBACK`: reads are pure functions, and the model only covers faults inside the transfer unit, chosen by the `Fault` parameter.
- The sqlite connection and the promisify helpers (database.js:1-40), and the schema and seed script: the tables are in memory.
- `insertOTP`, `getOTPById`, `getActiveOTPByUserId`, `verifyOTP`, `insertOTPAttempt`, `getRecentFailedAttempts`, `cleanupExpiredOTPs` and `updateOTPTransactionId` are imported by server.js:18-25 but database.js does not define them. They are modelled from their call sites. The failed-attempt query returns newest first because server.js:93 reads `attempts[0]` as the latest.
- Payments.FieldsCheck: takes the amount as a JSON number. A string amount (server.js:46-47) is not covered: `"0"` is truthy, so the source refuses it as non-positive, not as missing fields (`BodyAmount.ZeroTextIsNonPositive`).
- Payments.SendPaymentOutcome: the amount is assumed to be a JSON number. A string amount passes the checks, but server.js:288 concatenates it onto the receiver's balance and creates money (`BodyAmount.StringAmountCreatesMoney`).
- Payments.DirectTransfer: the credit `q.balance + amount` holds for a number only; a string amount is credited by concatenation at server.js:288 (`BodyAmount.SendAsWritten`).
- Server.PaymentServer.SendPayment: takes the amount as an `int`; a string amount, and the concatenating credit it causes at server.js:288, are modelled only in `BodyAmount`.
- Server.PaymentServer.HandleSendPayment: takes the amount as an `int`; a string amount, and the concatenating credit it causes at server.js:288, are modelled only in `BodyAmount`.
- Server.PaymentServer.PayDirectly: takes the amount as an `int`; a string amount, and the concatenating credit it causes at server.js:288, are modelled only in `BodyAmount`.
- PaymentLemmas.SendPaymentPreserves: keeps the total only for a numeric amount; with a string amount the source creates money (`BodyAmount.StringAmountCreatesMoney`).
- PaymentLemmas.SendPaymentEffect: "credits the receiver with the amount" holds for a numeric amount only; server.js:288 concatenates a string one.
- PaymentLemmas.SendPaymentTransfers: ends in the committed transfer of the amount only for a numeric amount; server.js:288 concatenates a string one.
- BodyAmount.SendAsWritten: covers integers and strings of decimal digits only; signs, fractions, exponents, surrounding blanks and texts that convert to `NaN` are not modelled, and neither is the echo of the text in the insufficient-balance reply.
- The verify-OTP transfer reads the amount back from the challenge row (server.js:509-513). The challenge table's schema is not part of the source, so the model assumes the amount is stored and read back as a number.
- Store.Database.InsertTransaction: stamps the row with the caller's `now` in milliseconds. `insertTransaction` (database.js:56-61) passes no time, so the database stamps the row with the column default `CURRENT_TIMESTAMP` (init-db.js:44): its own clock, in UTC text, in whole seconds. The dashboard reads that text back as local time (see `Dashboard.FormatDate` below), which shifts every displayed age by the zone offset.
- Store.Database.CleanupExpiredOtps: assumed: it deletes the unverified challenges strictly past expiry, because the function's body is not part of the source.
- Store.GetActiveOtpByUserId: assumed: it returns the first unverified challenge of the user that has not expired, because the function's body is not part of the source.
- OtpCode.GenerateOtp: `Math.random` is a nondeterministic choice in 100000..999999; the distribution is not modelled.
- Server.PaymentServer.RecordExpired: takes `fault` only as a ghost parameter, to name the outcome function; no statement in this step can fail.
- Server.PaymentServer.RecordWrongCode: takes `fault` only as a ghost parameter, to name the outcome function; no statement in this step can fail.
- The dashboard's `fetch` calls, camera scanner, speech, vibration, alerts and `formatMoney`, and public/js/login.js: UI and browser APIs.
- Dashboard.LowerChar: folds only ASCII letters; `toLowerCase` on other Unicode letters is not modelled.
- Dashboard.FormatDate: the text of the older-than-a-week label (`toLocaleDateString`) is not modelled; `Label` gives no text for it.
- Dashboard.FormatDate: `date` is taken as the true instant of the payment. In the source, `new Date(dateString)` (public/js/dashboard.js:556) parses the stored `YYYY-MM-DD HH:MM:SS` text, which has no zone, as local time, although the database wrote it in UTC. In a zone ahead of UTC, the label is therefore computed from an instant shifted back by the zone offset: in UTC+8, a payment made a moment ago is labelled "8h ago", never "Just now". The whole-second stamp also drops the milliseconds.
- Dashboard.DashboardApp.CalculateStats: the time zone is a fixed offset from UTC, so daylight-saving changes are not modelled, and timestamps are already numbers rather than date strings. The local-time parse of the UTC stamp (public/js/dashboard.js:184, 206) is not modelled either: in the source a row is filed under the local day of its UTC wall-clock time, so in UTC+8 a payment made at 07:00 local time counts for the previous day and is left out of "sent today". The first walk over the list is modelled but has no effect, as in the source.
- Throttle.LockMinutesBounds: holds only when no attempt is logged in the future; a later-timestamped failure could report more than 10 minutes.

## Findings

| source | as written | input that shows it | evidently intended | confidence | as-written member | corrected member |
|---|---|---|---|---|---|---|
| server.js:288 | `receiver.balance + amount` adds the body's `amount` as it arrives; a string amount, which every form post and some JSON bodies send, is joined to the balance's digits, after the checks and the debit have treated it as a number | `amount=100` from a balance of 10000 to one of 3000: the sender drops to 9900 and the receiver's balance becomes `"3000100"`, stored as 3000100, creating 2997000 | convert the amount to a number once, then debit and credit that number | not executed | BodyAmount.SendAsWritten, BodyAmount.StringAmountCreatesMoney, BodyAmount.FormPostOfHundred | BodyAmount.SendIntended, BodyAmount.NumbersAreIntended |
| server.js:760-762 | the close handler of an event stream runs `sseClients.delete(userId)`, whichever stream closed | one account opens stream 1, then stream 2 (which replaces 1 in the map), then stream 1 closes: the live stream 2 is removed, so later notifications to the account are dropped | remove the entry only if it still holds the stream that closed | not executed | Notify.Registry.Disconnect, Notify.StaleCloseDropsLiveStream | Notify.Registry.DisconnectChannel, Notify.StaleCloseKeepsLiveStream |

=== FILE: body_amount.dfy ===
/**
 * The `amount` of a send-payment request as the JavaScript value the
 * handler receives. `bodyParser.json` (server.js:46) keeps a JSON number
 * or string as sent, and `bodyParser.urlencoded` (server.js:47) always
 * gives a string. The handler uses the value as it comes:
 *  - `!amount` tests truthiness;
 *  - `amount <= 0`, `sender.balance < amount` and `sender.balance - amount`
 *    convert a string to a number;
 *  - `receiver.balance + amount` (server.js:288) joins the balance's digits
 *    and the string, and the `REAL` balance column (init-db.js:25) stores
 *    that text as the number it spells.
 * The rest of the model takes the amount as a number. This module states
 * what a string amount does, and the credit that was evidently intended.
 */
module BodyAmount {
  import opened Common
  import opened OtpCode
  import Payments

  /** A request body field: a number or a string. */
  datatype JsValue = Num(n: int) | Str(s: string)

  predicate AllDigits(s: string)
  {
    forall i :: 0 <= i < |s| ==> IsDigit(s[i])
  }

  /** The values covered: integers, and strings of decimal digits (the empty one included). */
  predicate Modelled(v: JsValue)
  {
    v.Num? || AllDigits(v.s)
  }

  /** `!!v`: a non-zero number, or a non-empty string (so `"0"` is truthy). */
  predicate Truthy(v: JsValue)
  {
    if v.Num? then v.n != 0 else v.s != []
  }

  /** `Number(v)`, as the comparisons and `-` apply it (`Number("")` is 0); also what `REAL`
      affinity makes of such a text. */
  function ToNumber(v: JsValue): int
    requires Modelled(v)
  {
    if v.Num? then v.n else DecimalValue(v.s)
  }

  /** `a + v` for a balance `a`: the sum with a number, or `String(a)` joined to a string. */
  function Plus(a: nat, v: JsValue): (r: JsValue)
    ensures v.Num? ==> r == Num(a + v.n)
    ensures v.Str? ==> r.Str? && |r.s| > |v.s| && r.s[|r.s| - |v.s|..] == v.s
  {
    if v.Num? then Num(a + v.n) else Str(DecimalString(a) + v.s)
  }

  /** What a payment step does to the two balances: refuse, or move them to new values. */
  datatype Step = Stopped(failure: Payments.Failure) | Moved(senderBalance: int, receiverBalance: int)

  /** The amount tests of server.js:242-276 for two found, distinct parties: fields, sign,
      then the balance (the party lookups between them do not depend on the amount). */
  function AmountCheck(receiverEmail: string, senderBalance: int, amount: JsValue): (r: Option<Payments.Failure>)
    requires Modelled(amount)
    ensures r.None? <==> receiverEmail != [] && Truthy(amount) && 0 < ToNumber(amount) <= senderBalance
    ensures r == Some(Payments.MissingFields) <==> receiverEmail == [] || !Truthy(amount)
  {
    if receiverEmail == [] || !Truthy(amount) then Some(Payments.MissingFields)
    else if ToNumber(amount) <= 0 then Some(Payments.NonPositiveAmount)
    else if senderBalance < ToNumber(amount) then
      Some(Payments.InsufficientBalance(senderBalance, ToNumber(amount)))
    else None
  }

  /** On a JSON number the amount tests are the model's `FieldsCheck` followed by the balance test. */
  lemma NumberCheckIsModel(receiverEmail: string, senderBalance: int, n: int)
    ensures var f := Payments.FieldsCheck(receiverEmail, n);
            AmountCheck(receiverEmail, senderBalance, Num(n))
            == if f.Some? then f
               else if senderBalance < n then Some(Payments.InsufficientBalance(senderBalance, n))
               else None
  {
  }

  /** Send-payment's debit and credit as written (server.js:284, 288). */
  function SendAsWritten(receiverEmail: string, senderBalance: int, receiverBalance: nat, amount: JsValue): (r: Step)
    requires Modelled(amount)
    ensures r.Moved? <==> AmountCheck(receiverEmail, senderBalance, amount).None?
    ensures r.Stopped? ==> Some(r.failure) == AmountCheck(receiverEmail, senderBalance, amount)
    ensures r.Moved? ==> r.senderBalance == senderBalance - ToNumber(amount)
  {
    match AmountCheck(receiverEmail, senderBalance, amount)
    case Some(f) => Stopped(f)
    case None =>
      var credit := Plus(receiverBalance, amount);
      assert Modelled(credit);
      Moved(senderBalance - ToNumber(amount), ToNumber(credit))
  }

  /** The digits of `a` followed by those of `b` denote `a`'s value shifted past `b`'s digits. */
  lemma {:induction false} DecimalConcat(a: string, b: string)
    requires AllDigits(a) && AllDigits(b)
    ensures AllDigits(a + b)
    ensures DecimalValue(a + b) == DecimalValue(a) * Pow10(|b|) + DecimalValue(b)
  {
    assert forall i :: 0 <= i < |a + b| ==> (a + b)[i] == if i < |a| then a[i] else b[i - |a|];
    if b == [] {
      assert a + b == a;
    } else {
      var b' := b[..|b| - 1];
      assert (a + b)[..|a + b| - 1] == a + b';
      DecimalConcat(a, b');
      ShiftDigit(DecimalValue(a), Pow10(|b'|), DecimalValue(b'), DigitValue(b[|b| - 1]));
    }
  }

  /** One more digit: `(x * p + y) * 10 + d == x * (10 * p) + (y * 10 + d)`. */
  lemma ShiftDigit(x: int, p: int, y: int, d: int)
    ensures (x * p + y) * 10 + d == x * (10 * p) + (y * 10 + d)
  {
  }

  /** A string amount credits the balance with its digits appended: `b` becomes
      `b * 10^|s| + s`. */
  lemma StringCreditAppends(receiverBalance: nat, s: string)
    requires AllDigits(s)
    ensures Modelled(Plus(receiverBalance, Str(s)))
    ensures ToNumber(Plus(receiverBalance, Str(s)))
            == receiverBalance * Pow10(|s|) + DecimalValue(s)
  {
    DecimalConcat(DecimalString(receiverBalance), s);
    DecimalRoundTrip(receiverBalance);
  }

  /** A string amount that passes the tests creates `b * (10^|s| - 1)` out of nothing,
      where `b` is the receiver's balance; any positive balance makes the total grow. */
  lemma StringAmountCreatesMoney(receiverEmail: string, senderBalance: int, receiverBalance: nat, s: string)
    requires AllDigits(s)
    requires SendAsWritten(receiverEmail, senderBalance, receiverBalance, Str(s)).Moved?
    ensures var r := SendAsWritten(receiverEmail, senderBalance, receiverBalance, Str(s));
            && r.senderBalance + r.receiverBalance
               == senderBalance + receiverBalance + receiverBalance * (Pow10(|s|) - 1)
            && (receiverBalance > 0 ==> r.senderBalance + r.receiverBalance > senderBalance + receiverBalance)
  {
    StringCreditAppends(receiverBalance, s);
    assert |s| >= 1;
    var p := Pow10(|s|);
    assert p == 10 * Pow10(|s| - 1);
    Grows(receiverBalance, p);
  }

  /** `b * p - b` is `b * (p - 1)`, and positive when `b` is and `p >= 10`. */
  lemma Grows(b: nat, p: int)
    requires p >= 10
    ensures b * p - b == b * (p - 1)
    ensures b > 0 ==> b * (p - 1) > 0
  {
  }

  /** The form post `amount=100` from 10000 to an account holding 3000: the sender ends at
      9900 and the receiver at 3000100. */
  lemma FormPostOfHundred()
    ensures SendAsWritten("b@example.com", 10000, 3000, Str("100")) == Moved(9900, 3000100)
  {
    StringCreditAppends(3000, "100");
    assert "100"[..2] == "10" && "10"[..1] == "1";
    assert DecimalValue("100") == 100;
    assert Pow10(3) == 1000;
  }

  /** The text `"0"` is truthy: it is refused as a non-positive amount, whereas the number
      0 is refused as a missing field. */
  lemma ZeroTextIsNonPositive(receiverEmail: string, senderBalance: int, receiverBalance: nat)
    requires receiverEmail != []
    ensures SendAsWritten(receiverEmail, senderBalance, receiverBalance, Str("0"))
            == Stopped(Payments.NonPositiveAmount)
    ensures SendAsWritten(receiverEmail, senderBalance, receiverBalance, Num(0))
            == Stopped(Payments.MissingFields)
  {
    assert "0"[..0] == [];
  }

  /** The evidently intended step: the amount converted once, then a numeric debit and credit. */
  function SendIntended(receiverEmail: string, senderBalance: int, receiverBalance: nat, amount: JsValue): (r: Step)
    requires Modelled(amount)
    ensures r.Moved? <==> AmountCheck(receiverEmail, senderBalance, amount).None?
    ensures r.Stopped? ==> Some(r.failure) == AmountCheck(receiverEmail, senderBalance, amount)
    ensures r.Moved? ==> r.senderBalance + r.receiverBalance == senderBalance + receiverBalance
    ensures r.Moved? ==> r.senderBalance == senderBalance - ToNumber(amount)
                         && r.receiverBalance == receiverBalance + ToNumber(amount)
  {
    match AmountCheck(receiverEmail, senderBalance, amount)
    case Some(f) => Stopped(f)
    case None => Moved(senderBalance - ToNumber(amount), receiverBalance + ToNumber(amount))
  }

  /** On a JSON number the code as written is the intended step, which is the debit and
      credit the rest of the model performs (`Payments.Transferred`). */
  lemma NumbersAreIntended(receiverEmail: string, senderBalance: int, receiverBalance: nat, n: int)
    ensures SendAsWritten(receiverEmail, senderBalance, receiverBalance, Num(n))
            == SendIntended(receiverEmail, senderBalance, receiverBalance, Num(n))
  {
  }
}

=== FILE: code.dfy ===
/**
 * `generateOTP`: `Math.floor(100000 + Math.random() * 900000).toString()`.
 * The random draw is a nondeterministic choice of an integer in
 * 100000..999999; its decimal rendering is what the OTP table stores and
 * what the caller must send back.
 */
module OtpCode {

  /** `OTP_CONFIG.LENGTH` */
  const OTP_LENGTH: nat := 6
  const OTP_MIN: nat := 100000
  const OTP_MAX: nat := 999999

  function Pow10(k: nat): (r: nat)
    ensures r >= 1
  {
    if k == 0 then 1 else 10 * Pow10(k - 1)
  }

  function Digit(d: nat): char
    requires d < 10
  {
    "0123456789"[d]
  }

  predicate IsDigit(c: char) { '0' <= c <= '9' }

  /** Decimal rendering of a natural number, no leading zeros (`Number.prototype.toString`). */
  function DecimalString(n: nat): (s: string)
    ensures |s| >= 1
    ensures forall i :: 0 <= i < |s| ==> IsDigit(s[i])
  {
    if n < 10 then [Digit(n)] else DecimalString(n / 10) + [Digit(n % 10)]
  }

  function DigitValue(c: char): (d: nat)
    requires IsDigit(c)
    ensures d < 10 && Digit(d) == c
  {
    if c == '0' then 0 else if c == '1' then 1 else if c == '2' then 2 else if c == '3' then 3
    else if c == '4' then 4 else if c == '5' then 5 else if c == '6' then 6 else if c == '7' then 7
    else if c == '8' then 8 else 9
  }

  /** The number a string of decimal digits denotes. */
  function DecimalValue(s: string): nat
    requires forall i :: 0 <= i < |s| ==> IsDigit(s[i])
  {
    if s == [] then 0
    else DecimalValue(s[..|s| - 1]) * 10 + DigitValue(s[|s| - 1])
  }

  /** Reading back a rendered number gives the number. */
  lemma {:induction false} DecimalRoundTrip(n: nat)
    ensures DecimalValue(DecimalString(n)) == n
  {
    var s := DecimalString(n);
    if n >= 10 {
      DecimalRoundTrip(n / 10);
      assert s[..|s| - 1] == DecimalString(n / 10);
    }
  }

  /** A number with exactly `k` decimal digits renders to `k` characters. */
  lemma {:induction false} DecimalLength(n: nat, k: nat)
    requires 1 <= k && Pow10(k - 1) <= n < Pow10(k)
    ensures |DecimalString(n)| == k
  {
    if n >= 10 {
      assert k >= 2;
      assert Pow10(k - 1) == 10 * Pow10(k - 2);
      assert Pow10(k - 2) <= n / 10 < Pow10(k - 1);
      DecimalLength(n / 10, k - 1);
    } else {
      assert k == 1;
    }
  }

  /** A positive number renders without a leading zero. */
  lemma {:induction false} NoLeadingZero(n: nat)
    requires n >= 1
    ensures DecimalString(n)[0] != '0'
  {
    if n >= 10 {
      NoLeadingZero(n / 10);
      assert DecimalString(n)[0] == DecimalString(n / 10)[0];
    }
  }

  /** What an issued code looks like: six digits, the first not zero. */
  predicate IsOtpCode(c: string)
  {
    |c| == OTP_LENGTH && (forall i :: 0 <= i < |c| ==> IsDigit(c[i])) && c[0] != '0'
  }

  /** `generateOTP`: some code in 100000..999999, rendered in decimal. */
  method GenerateOtp() returns (code: string)
    ensures IsOtpCode(code)
    ensures OTP_MIN <= DecimalValue(code) <= OTP_MAX && code == DecimalString(DecimalValue(code))
  {
    var n: nat :| OTP_MIN <= n <= OTP_MAX;
    code := DecimalString(n);
    assert Pow10(5) == 100000 && Pow10(6) == 1000000;
    DecimalLength(n, 6);
    NoLeadingZero(n);
    DecimalRoundTrip(n);
  }
}

=== FILE: common.dfy ===
/** Small value helpers shared by every module of the model. */
module Common {

  /** A row that a query may or may not find (`undefined` in the source). */
  datatype Option<+T> = None | Some(value: T)

  function Min(a: int, b: int): (r: int)
    ensures r <= a && r <= b
    ensures r == a || r == b
  {
    if a <= b then a else b
  }

  /** `r` is `s` with some elements dropped, the rest kept in order. */
  ghost predicate Subsequence<T>(r: seq<T>, s: seq<T>)
    decreases |s|
  {
    if r == [] then true
    else if s == [] then false
    else if r[0] == s[0] then Subsequence(r[1..], s[1..])
    else Subsequence(r, s[1..])
  }

  /** The first element satisfying `p`, as `db.get` returns the first matching row. */
  function First<T>(s: seq<T>, p: T -> bool): (r: Option<T>)
    ensures r.Some? ==> r.value in s && p(r.value)
    ensures r.None? <==> forall i :: 0 <= i < |s| ==> !p(s[i])
  {
    if s == [] then None
    else if p(s[0]) then Some(s[0])
    else First(s[1..], p)
  }

  /** When only the element at index `k` satisfies `p`, `First` finds exactly it. */
  lemma {:induction false} FirstIsTheOnlyMatch<T>(s: seq<T>, p: T -> bool, k: nat)
    requires k < |s| && p(s[k])
    requires forall i :: 0 <= i < |s| && i != k ==> !p(s[i])
    ensures First(s, p) == Some(s[k])
  {
    if k > 0 {
      assert !p(s[0]);
      FirstIsTheOnlyMatch(s[1..], p, k - 1);
    }
  }

  /** The elements satisfying `p`, in their original order (`Array.prototype.filter`, `WHERE`). */
  function Filter<T>(s: seq<T>, p: T -> bool): (r: seq<T>)
    ensures |r| <= |s|
    ensures forall x :: x in r ==> x in s && p(x)
    ensures forall i :: 0 <= i < |s| && p(s[i]) ==> s[i] in r
  {
    if s == [] then []
    else
      var rest := Filter(s[1..], p);
      assert forall i :: 1 <= i < |s| ==> s[i] == s[1..][i - 1];
      if p(s[0]) then [s[0]] + rest else rest
  }

  /** What `Filter` keeps stays in its original order. */
  lemma {:induction false} FilterInOrder<T>(s: seq<T>, p: T -> bool)
    ensures Subsequence(Filter(s, p), s)
  {
    if s != [] {
      FilterInOrder(s[1..], p);
    }
  }

  /** Filtering keeps everything when every element passes. */
  lemma {:induction false} FilterAll<T>(s: seq<T>, p: T -> bool)
    requires forall i :: 0 <= i < |s| ==> p(s[i])
    ensures Filter(s, p) == s
  {
    if s != [] {
      FilterAll(s[1..], p);
      assert [s[0]] + s[1..] == s;
    }
  }

  /** Filtering keeps nothing when no element passes. */
  lemma {:induction false} FilterNone<T>(s: seq<T>, p: T -> bool)
    requires forall i :: 0 <= i < |s| ==> !p(s[i])
    ensures Filter(s, p) == []
  {
    if s != [] {
      FilterNone(s[1..], p);
    }
  }

  /** Filtering an extended sequence extends the filtered one by the new element if it passes. */
  lemma {:induction false} FilterAppend<T>(s: seq<T>, x: T, p: T -> bool)
    ensures Filter(s + [x], p) == Filter(s, p) + (if p(x) then [x] else [])
  {
    if s == [] {
      assert [] + [x] == [x];
    } else {
      assert (s + [x])[0] == s[0];
      assert (s + [x])[1..] == s[1..] + [x];
      FilterAppend(s[1..], x, p);
    }
  }

  /** Filtering a prefix gives a prefix of the filtered sequence. */
  lemma {:induction false} FilterPrefix<T>(s: seq<T>, p: T -> bool, j: nat)
    requires j <= |s|
    ensures Filter(s[..j], p) <= Filter(s, p)
    decreases |s| - j
  {
    if j == |s| {
      assert s[..j] == s;
    } else {
      FilterPrefix(s, p, j + 1);
      assert s[..j + 1] == s[..j] + [s[j]];
      FilterAppend(s[..j], s[j], p);
    }
  }

  /** A prefix of a subsequence is a subsequence. */
  lemma {:induction false} SubsequencePrefix<T>(r: seq<T>, s: seq<T>, k: nat)
    requires Subsequence(r, s) && k <= |r|
    ensures Subsequence(r[..k], s)
    decreases |s|
  {
    if k == 0 || r == [] {
    } else if r[0] == s[0] {
      SubsequencePrefix(r[1..], s[1..], k - 1);
      assert r[..k][1..] == r[1..][..k - 1];
    } else {
      SubsequencePrefix(r, s[1..], k);
    }
  }

  /** Every element of a subsequence occurs in the sequence. */
  lemma {:induction false} SubsequenceMembers<T>(r: seq<T>, s: seq<T>, x: T)
    requires Subsequence(r, s) && x in r
    ensures x in s
    decreases |s|
  {
    if r[0] == s[0] {
      if x != r[0] {
        SubsequenceMembers(r[1..], s[1..], x);
      }
    } else {
      SubsequenceMembers(r, s[1..], x);
    }
  }
}

=== FILE: dashboard.dfy ===
/**
 * The dashboard's browser component (`dashboardApp`): the recipient
 * search behind the payment form, picking a suggestion, the three
 * statistics cards computed from the loaded history, closing the payment
 * modal, and the relative date labels of the history list.
 *
 * The component's fields that these handlers overwrite are fields of a
 * class; the pure pieces (the search filter, the per-day sums, the date
 * buckets) are functions. The browser clock and the time zone are
 * parameters: `now` in milliseconds and the zone's fixed offset from UTC.
 */
module Dashboard {
  import opened Common
  import opened Store
  import opened Payments
  import opened OtpCode

  // ----- recipient search (`searchUsers`) -----------------------------------

  /** Queries shorter than this clear the suggestion list. */
  const MIN_QUERY_LENGTH: nat := 2
  /** `.slice(0, 5)` */
  const MAX_SUGGESTIONS: nat := 5

  /** `toLowerCase` on one character; only ASCII letters are folded. */
  function LowerChar(c: char): (r: char)
    ensures 'A' <= c <= 'Z' ==> r as int == c as int + 32
    ensures !('A' <= c <= 'Z') ==> r == c
    ensures !('A' <= r <= 'Z')
    ensures 'a' <= r <= 'z' <==> 'A' <= c <= 'Z' || 'a' <= c <= 'z'
  {
    if 'A' <= c <= 'Z' then (c as int + 32) as char else c
  }

  function Lower(s: string): (r: string)
    ensures |r| == |s|
    ensures forall i :: 0 <= i < |s| ==> r[i] == LowerChar(s[i])
    ensures forall i :: 0 <= i < |r| ==> !('A' <= r[i] <= 'Z')
  {
    seq(|s|, i requires 0 <= i < |s| => LowerChar(s[i]))
  }

  /** Folding twice is folding once. */
  lemma LowerIdempotent(s: string)
    ensures Lower(Lower(s)) == Lower(s)
  {
  }

  /** `s.includes(q)`, by scanning the start positions one at a time. */
  predicate Includes(s: string, q: string)
  {
    q <= s || (s != [] && Includes(s[1..], q))
  }

  /** `Includes` holds exactly when `q` occurs in `s` at some position. */
  lemma {:induction false} IncludesIff(s: string, q: string)
    ensures Includes(s, q) <==> exists i :: 0 <= i <= |s| && q <= s[i..]
    decreases |s|
  {
    if Includes(s, q) {
      if q <= s {
        assert s[0..] == s;
      } else {
        IncludesIff(s[1..], q);
        var j :| 0 <= j <= |s[1..]| && q <= s[1..][j..];
        assert s[1..][j..] == s[j + 1..];
      }
    }
    if exists i :: 0 <= i <= |s| && q <= s[i..] {
      var i :| 0 <= i <= |s| && q <= s[i..];
      if i > 0 {
        IncludesIff(s[1..], q);
        assert s[1..][i - 1..] == s[i..];
      } else {
        assert s[0..] == s;
      }
    }
  }

  /** The filter of `searchUsers`: the query occurs in the folded email or name. */
  predicate Matches(u: PublicUser, query: string)
  {
    Includes(Lower(u.email), query) || Includes(Lower(u.name), query)
  }

  /** The `filter` of `searchUsers`, before the cap. */
  function Matching(users: seq<PublicUser>, query: string): seq<PublicUser>
  {
    Filter(users, (u: PublicUser) => Matches(u, query))
  }

  /** The matches before a matching user, then that user, begin the list of all matches. */
  lemma {:induction false} MatchingRank(users: seq<PublicUser>, query: string, i: nat)
    requires i < |users| && Matches(users[i], query)
    ensures Matching(users[..i], query) + [users[i]] <= Matching(users, query)
  {
    var p := (u: PublicUser) => Matches(u, query);
    FilterPrefix(users, p, i + 1);
    assert users[..i + 1] == users[..i] + [users[i]];
    FilterAppend(users[..i], users[i], p);
  }

  /** `searchUsers`: the list `filteredUsers` receives. */
  function Suggestions(allUsers: seq<PublicUser>, receiverEmail: string): (r: seq<PublicUser>)
    ensures |r| <= MAX_SUGGESTIONS
    ensures |receiverEmail| < MIN_QUERY_LENGTH ==> r == []
    ensures forall u :: u in r ==> u in allUsers && Matches(u, Lower(receiverEmail))
  {
    var query := Lower(receiverEmail);
    if |query| < MIN_QUERY_LENGTH then []
    else
      var matching := Matching(allUsers, query);
      if |matching| <= MAX_SUGGESTIONS then matching else matching[..MAX_SUGGESTIONS]
  }

  /** Suggestions keep the order of the loaded user list. */
  lemma SuggestionsInOrder(allUsers: seq<PublicUser>, receiverEmail: string)
    ensures Subsequence(Suggestions(allUsers, receiverEmail), allUsers)
  {
    var query := Lower(receiverEmail);
    if |query| >= MIN_QUERY_LENGTH {
      var matching := Matching(allUsers, query);
      FilterInOrder(allUsers, (u: PublicUser) => Matches(u, query));
      if |matching| > MAX_SUGGESTIONS {
        SubsequencePrefix(matching, allUsers, MAX_SUGGESTIONS);
      }
    } else {
      assert Suggestions(allUsers, receiverEmail) == allUsers[..0];
    }
  }

  /**
   * A list shorter than the cap holds every matching user: nothing that
   * matches a long enough query is dropped unless five others came first.
   */
  lemma SuggestionsComplete(allUsers: seq<PublicUser>, receiverEmail: string)
    requires |receiverEmail| >= MIN_QUERY_LENGTH
    requires |Suggestions(allUsers, receiverEmail)| < MAX_SUGGESTIONS
    ensures forall i :: 0 <= i < |allUsers| && Matches(allUsers[i], Lower(receiverEmail)) ==>
              allUsers[i] in Suggestions(allUsers, receiverEmail)
  {
    var query := Lower(receiverEmail);
    var matching := Matching(allUsers, query);
    assert Suggestions(allUsers, receiverEmail) == matching;
  }

  /**
   * `.slice(0, 5)` keeps the first five matches: a matching user with fewer than five
   * matches before it in the list is suggested, at the position its rank gives it.
   */
  lemma {:induction false} SuggestionsKeepFirst(allUsers: seq<PublicUser>, receiverEmail: string, i: nat)
    requires |receiverEmail| >= MIN_QUERY_LENGTH && i < |allUsers|
    requires Matches(allUsers[i], Lower(receiverEmail))
    requires |Matching(allUsers[..i], Lower(receiverEmail))| < MAX_SUGGESTIONS
    ensures var k := |Matching(allUsers[..i], Lower(receiverEmail))|;
            var r := Suggestions(allUsers, receiverEmail);
            k < |r| && r[k] == allUsers[i]
  {
    var query := Lower(receiverEmail);
    MatchingRank(allUsers, query, i);
    var before := Matching(allUsers[..i], query);
    var matching := Matching(allUsers, query);
    assert matching[|before|] == allUsers[i];
  }

  /** The email a suggestion fills in is itself a query that finds that user. */
  lemma {:induction false} PickedEmailMatches(u: PublicUser)
    ensures Matches(u, Lower(u.email))
  {
    IncludesIff(Lower(u.email), Lower(u.email));
    assert Lower(u.email) <= Lower(u.email)[0..];
  }

  // ----- statistics cards (`calculateStats`) ---------------------------------

  const DAY_MS: int := 24 * 60 * 60 * 1000

  /** Number of the local calendar day an instant falls on. */
  function LocalDay(t: int, offset: int): int
  {
    (t + offset) / DAY_MS
  }

  /** `setHours(0, 0, 0, 0)`: the instant of the local midnight that starts the day of `t`. */
  function Midnight(t: int, offset: int): (m: int)
    ensures m <= t < m + DAY_MS
    ensures (m + offset) % DAY_MS == 0
    ensures m == DAY_MS * LocalDay(t, offset) - offset
  {
    t - (t + offset) % DAY_MS
  }

  /** Two instants have the same local midnight exactly when they fall on the same local day. */
  lemma SameMidnight(t: int, u: int, offset: int)
    ensures Midnight(t, offset) == Midnight(u, offset) <==> LocalDay(t, offset) == LocalDay(u, offset)
  {
  }

  /** Money this user sent on local day `day`. */
  function SentOn(txs: seq<TxView>, day: int, offset: int): int
  {
    if txs == [] then 0
    else
      var t := txs[|txs| - 1];
      SentOn(txs[..|txs| - 1], day, offset)
      + (if t.direction == Sent && LocalDay(t.timestamp, offset) == day then t.amount else 0)
  }

  /** Money this user sent, whatever the day. */
  function SentTotal(txs: seq<TxView>): int
  {
    if txs == [] then 0
    else SentTotal(txs[..|txs| - 1]) + (if txs[|txs| - 1].direction == Sent then txs[|txs| - 1].amount else 0)
  }

  /** Money this user received. */
  function ReceivedTotal(txs: seq<TxView>): int
  {
    if txs == [] then 0
    else ReceivedTotal(txs[..|txs| - 1]) + (if txs[|txs| - 1].direction == Received then txs[|txs| - 1].amount else 0)
  }

  /** The received total does not depend on how the list is split. */
  lemma {:induction false} ReceivedTotalAppend(a: seq<TxView>, b: seq<TxView>)
    ensures ReceivedTotal(a + b) == ReceivedTotal(a) + ReceivedTotal(b)
    decreases |b|
  {
    if b != [] {
      assert (a + b)[..|a + b| - 1] == a + b[..|b| - 1];
      ReceivedTotalAppend(a, b[..|b| - 1]);
    } else {
      assert a + b == a;
    }
  }

  /** With non-negative amounts, today's outgoing money is part of all outgoing money. */
  lemma {:induction false} SentOnWithinSent(txs: seq<TxView>, day: int, offset: int)
    requires forall i :: 0 <= i < |txs| ==> txs[i].amount >= 0
    ensures 0 <= SentOn(txs, day, offset) <= SentTotal(txs)
  {
    if txs != [] {
      SentOnWithinSent(txs[..|txs| - 1], day, offset);
    }
  }

  /** A received transfer moves the received card only, by its amount. */
  lemma ReceivedOnlyMovesReceived(txs: seq<TxView>, t: TxView, day: int, offset: int)
    requires t.direction == Received
    ensures SentOn(txs + [t], day, offset) == SentOn(txs, day, offset)
    ensures ReceivedTotal(txs + [t]) == ReceivedTotal(txs) + t.amount
  {
    assert (txs + [t])[..|txs|] == txs;
  }

  /** The three statistics cards. */
  datatype Stats = Stats(totalSentToday: int, totalReceived: int, transactionCount: nat)

  // ----- the component ------------------------------------------------------

  datatype Recipient = Recipient(id: Option<nat>, name: string, email: string)
  datatype PaymentModal = PaymentModal(show: bool, recipient: Recipient, amount: string, sending: bool)

  /** The recipient the modal shows when no one is picked (`id: null`). */
  const NO_RECIPIENT := Recipient(None, "", "")

  class DashboardApp {
    /** `payment.receiverEmail`, the search box. */
    var receiverEmail: string
    var allUsers: seq<PublicUser>
    var filteredUsers: seq<PublicUser>
    var showSuggestions: bool
    var transactions: seq<TxView>
    var stats: Stats
    var paymentModal: PaymentModal

    /** The component's initial state. */
    constructor ()
      ensures receiverEmail == "" && allUsers == [] && filteredUsers == [] && !showSuggestions
      ensures transactions == [] && stats == Stats(0, 0, 0)
      ensures paymentModal == PaymentModal(false, NO_RECIPIENT, "", false)
    {
      receiverEmail := "";
      allUsers := [];
      filteredUsers := [];
      showSuggestions := false;
      transactions := [];
      stats := Stats(0, 0, 0);
      paymentModal := PaymentModal(false, NO_RECIPIENT, "", false);
    }

    /** `searchUsers`: recompute the suggestions from the search box. */
    method SearchUsers()
      modifies this
      ensures filteredUsers == Suggestions(allUsers, receiverEmail)
      ensures receiverEmail == old(receiverEmail) && allUsers == old(allUsers)
      ensures showSuggestions == old(showSuggestions) && transactions == old(transactions)
      ensures stats == old(stats) && paymentModal == old(paymentModal)
    {
      var query := Lower(receiverEmail);
      if |query| < MIN_QUERY_LENGTH {
        filteredUsers := [];
        return;
      }
      var matching := Matching(allUsers, query);
      filteredUsers := if |matching| <= MAX_SUGGESTIONS then matching else matching[..MAX_SUGGESTIONS];
    }

    /** `selectUser`: fill in the picked email and hide the list. */
    method SelectUser(user: PublicUser)
      modifies this
      ensures receiverEmail == user.email && !showSuggestions && filteredUsers == []
      ensures allUsers == old(allUsers) && transactions == old(transactions)
      ensures stats == old(stats) && paymentModal == old(paymentModal)
    {
      receiverEmail := user.email;
      showSuggestions := false;
      filteredUsers := [];
    }

    /**
     * `calculateStats`. The source walks the list twice; the first walk's
     * sums are thrown away before the second starts from zero, so only the
     * second decides the cards.
     */
    method CalculateStats(now: int, offset: int)
      modifies this
      ensures stats == Stats(SentOn(transactions, LocalDay(now, offset), offset),
                             ReceivedTotal(transactions), |transactions|)
      ensures receiverEmail == old(receiverEmail) && allUsers == old(allUsers)
      ensures filteredUsers == old(filteredUsers) && showSuggestions == old(showSuggestions)
      ensures transactions == old(transactions) && paymentModal == old(paymentModal)
    {
      var txs := transactions;
      var today := Midnight(now, offset);
      var totalSentToday := 0;
      var totalReceived := 0;
      var transactionCount := |txs|;

      var i := 0;
      while i < |txs|
        invariant 0 <= i <= |txs|
        modifies {}
      {
        totalReceived := totalReceived + txs[i].amount;
        i := i + 1;
      }

      totalSentToday := 0;
      totalReceived := 0;
      i := 0;
      while i < |txs|
        invariant 0 <= i <= |txs|
        invariant totalSentToday == SentOn(txs[..i], LocalDay(now, offset), offset)
        invariant totalReceived == ReceivedTotal(txs[..i])
        modifies {}
      {
        var t := txs[i];
        assert txs[..i + 1][..i] == txs[..i];
        SameMidnight(t.timestamp, now, offset);
        if t.direction == Sent {
          if Midnight(t.timestamp, offset) == today {
            totalSentToday := totalSentToday + t.amount;
          }
        } else {
          totalReceived := totalReceived + t.amount;
        }
        i := i + 1;
      }
      assert txs[..i] == txs;

      stats := Stats(totalSentToday, totalReceived, transactionCount);
    }

    /** `closePaymentModal`: hide the modal and clear its amount and recipient. */
    method ClosePaymentModal()
      modifies this
      ensures paymentModal == old(paymentModal).(show := false, amount := "", recipient := NO_RECIPIENT)
      ensures receiverEmail == old(receiverEmail) && allUsers == old(allUsers)
      ensures filteredUsers == old(filteredUsers) && showSuggestions == old(showSuggestions)
      ensures transactions == old(transactions) && stats == old(stats)
    {
      paymentModal := paymentModal.(show := false);
      paymentModal := paymentModal.(amount := "");
      paymentModal := paymentModal.(recipient := NO_RECIPIENT);
    }
  }

  // ----- relative dates (`formatDate`) --------------------------------------

  const MINUTE_MS: int := 60 * 1000
  const HOUR_MS: int := 60 * MINUTE_MS
  const WEEK_MS: int := 7 * DAY_MS

  /** The label `formatDate` picks, with the whole units it shows. */
  datatype DateLabel =
    | JustNow
    | MinutesAgo(minutes: nat)
    | HoursAgo(hours: nat)
    | DaysAgo(days: nat)
    | OnDate(date: int)

  /**
   * `formatDate`: the elapsed time is cut down to whole seconds, minutes,
   * hours and days, each by flooring the previous unit, and the first unit
   * below its limit picks the label. `date` is the instant the browser
   * parsed from the row's timestamp text.
   */
  function FormatDate(date: int, now: int): (r: DateLabel)
    ensures r == JustNow <==> now - date < MINUTE_MS
    ensures r.MinutesAgo? <==> MINUTE_MS <= now - date < HOUR_MS
    ensures r.HoursAgo? <==> HOUR_MS <= now - date < DAY_MS
    ensures r.DaysAgo? <==> DAY_MS <= now - date < WEEK_MS
    ensures r.OnDate? <==> WEEK_MS <= now - date
    ensures r.MinutesAgo? ==> 1 <= r.minutes < 60 && r.minutes == (now - date) / MINUTE_MS
    ensures r.HoursAgo? ==> 1 <= r.hours < 24 && r.hours == (now - date) / HOUR_MS
    ensures r.DaysAgo? ==> 1 <= r.days < 7 && r.days == (now - date) / DAY_MS
    ensures r.OnDate? ==> r.date == date
  {
    var diff := now - date;
    var seconds := diff / 1000;
    var minutes := seconds / 60;
    var hours := minutes / 60;
    var days := hours / 24;
    if seconds < 60 then JustNow
    else if minutes < 60 then MinutesAgo(minutes)
    else if hours < 24 then HoursAgo(hours)
    else if days < 7 then DaysAgo(days)
    else OnDate(date)
  }

  /** The text of a label; the calendar date of an older one is the locale's and is not modelled. */
  function Label(l: DateLabel): (r: Option<string>)
    ensures r.None? <==> l.OnDate?
    ensures l.JustNow? ==> r == Some("Just now")
    ensures l.MinutesAgo? || l.HoursAgo? || l.DaysAgo? ==>
              var s := r.value;
              && |s| >= 6 && s[..|s| - 5] == DecimalString(Count(l)) && s[|s| - 5] == UnitLetter(l)
              && s[|s| - 4..] == " ago"
  {
    match l
    case JustNow => Some("Just now")
    case MinutesAgo(n) => Some(DecimalString(n) + "m ago")
    case HoursAgo(n) => Some(DecimalString(n) + "h ago")
    case DaysAgo(n) => Some(DecimalString(n) + "d ago")
    case OnDate(_) => None
  }

  /** The unit letter of a counted label. */
  function UnitLetter(l: DateLabel): char
  {
    match l
    case MinutesAgo(_) => 'm'
    case HoursAgo(_) => 'h'
    case DaysAgo(_) => 'd'
    case _ => ' '
  }

  /** The whole units a counted label shows. */
  function Count(l: DateLabel): nat
  {
    match l
    case MinutesAgo(n) => n
    case HoursAgo(n) => n
    case DaysAgo(n) => n
    case _ => 0
  }

  /** Different labels read differently: the text gives back the bucket and the count. */
  lemma {:induction false} LabelsAreDistinct(a: DateLabel, b: DateLabel)
    requires Label(a).Some? && Label(a) == Label(b)
    ensures a == b
  {
    if !a.JustNow? && !b.JustNow? {
      DecimalRoundTrip(Count(a));
      DecimalRoundTrip(Count(b));
    }
  }

  /** How far down the list of labels a label sits: newer labels rank lower. */
  function Age(l: DateLabel): nat
  {
    match l
    case JustNow => 0
    case MinutesAgo(_) => 1
    case HoursAgo(_) => 2
    case DaysAgo(_) => 3
    case OnDate(_) => 4
  }

  /** As the clock moves on, a date's label never goes back to a newer kind. */
  lemma LabelsOnlyAge(date: int, now: int, later: int)
    requires now <= later
    ensures Age(FormatDate(date, now)) <= Age(FormatDate(date, later))
  {
  }
}

=== FILE: database.dfy ===
/**
 * The ledger store: the users and transactions tables with the queries
 * and updates of database.js, and the OTP table and attempt log that the
 * payment engine uses through the same SQLite connection. Every table is
 * an in-memory sequence of rows in insertion order; a `SELECT` is a pure
 * function of the tables, an `UPDATE`/`INSERT`/`DELETE` a method of the
 * `Database` object that replaces one table.
 */
module Store {
  import opened Common
  import Sorting

  /** Status written by every transfer; the only one the engine ever stores. */
  const COMPLETED: string := "completed"

  /** Maximum number of rows the history query returns (`LIMIT 50`). */
  const HISTORY_LIMIT: nat := 50

  /** A row of `users`; money is an integer number of centavos. */
  datatype User = User(id: nat, name: string, phone: string, email: string,
                       password: string, balance: int)

  /** A row of `SELECT id, name, phone, email, balance FROM users`. */
  datatype PublicUser = PublicUser(id: nat, name: string, phone: string, email: string, balance: int)

  /** A row of `transactions`. `timestamp` is the instant of the insert, in milliseconds since
      the epoch, as the writer passes it. In the source the row takes the column default
      `CURRENT_TIMESTAMP` (init-db.js:44) instead: UTC text in whole seconds. */
  datatype Transaction = Transaction(id: nat, senderId: nat, receiverId: nat, amount: int,
                                     status: string, timestamp: int)

  /** A row of the history query: a transaction joined with both parties. */
  datatype HistoryRow = HistoryRow(id: nat, amount: int, status: string, timestamp: int,
                                   senderName: string, senderEmail: string,
                                   receiverName: string, receiverEmail: string)

  /** A row of the OTP table: a challenge bound to one pending transfer. */
  datatype OtpRow = OtpRow(id: nat, userId: nat, code: string, receiverId: nat, amount: int,
                           expiresAt: int, verified: bool, transactionId: Option<nat>)

  /** A row of the append-only attempt log. */
  datatype Attempt = Attempt(userId: nat, otpId: nat, code: string, success: bool,
                             ip: string, attemptedAt: int)

  /** The whole database at one instant, as `BEGIN TRANSACTION` records it for `ROLLBACK`. */
  datatype Tables = Tables(users: seq<User>, transactions: seq<Transaction>, nextTxId: nat,
                           otps: seq<OtpRow>, nextOtpId: nat, attempts: seq<Attempt>)
  {
    /** Ids are unique (PRIMARY KEY), emails are unique (UNIQUE), and every
        AUTOINCREMENT id already handed out is positive and below the next one. */
    ghost predicate WellFormed()
    {
      && UniqueIds(users) && UniqueEmails(users) && nextTxId >= 1 && nextOtpId >= 1
      && (forall i :: 0 <= i < |transactions| ==> 1 <= transactions[i].id < nextTxId)
      && (forall i :: 0 <= i < |otps| ==> 1 <= otps[i].id < nextOtpId)
    }
  }

  ghost predicate UniqueIds(users: seq<User>)
  {
    forall i, j :: 0 <= i < j < |users| ==> users[i].id != users[j].id
  }

  ghost predicate UniqueEmails(users: seq<User>)
  {
    forall i, j :: 0 <= i < j < |users| ==> users[i].email != users[j].email
  }

  /** No account is overdrawn. */
  ghost predicate NonNegative(users: seq<User>)
  {
    forall i :: 0 <= i < |users| ==> users[i].balance >= 0
  }

  /** Sum of all balances. */
  function TotalBalance(users: seq<User>): int
  {
    if users == [] then 0 else users[0].balance + TotalBalance(users[1..])
  }

  // ----- SELECT helpers -----------------------------------------------------

  /** `getUserById`: the row with this id, or nothing. */
  function GetUserById(users: seq<User>, id: nat): (r: Option<User>)
    ensures r.Some? ==> r.value in users && r.value.id == id
    ensures r.None? <==> forall i :: 0 <= i < |users| ==> users[i].id != id
  {
    First(users, (u: User) => u.id == id)
  }

  /** `getUserByEmail`: the row with this email, or nothing. */
  function GetUserByEmail(users: seq<User>, email: string): (r: Option<User>)
    ensures r.Some? ==> r.value in users && r.value.email == email
    ensures r.None? <==> forall i :: 0 <= i < |users| ==> users[i].email != email
  {
    First(users, (u: User) => u.email == email)
  }

  /** With unique ids, the id lookup returns exactly the row that carries the id. */
  lemma {:induction false} GetUserByIdUnique(users: seq<User>, k: nat)
    requires UniqueIds(users) && k < |users|
    ensures GetUserById(users, users[k].id) == Some(users[k])
  {
    var id := users[k].id;
    forall i | 0 <= i < |users| && i != k
      ensures users[i].id != id
    {
      if i < k { assert users[i].id != users[k].id; } else { assert users[k].id != users[i].id; }
    }
    FirstIsTheOnlyMatch(users, (u: User) => u.id == id, k);
  }

  /** With unique emails (UNIQUE in the schema), the email lookup returns exactly that row. */
  lemma {:induction false} GetUserByEmailUnique(users: seq<User>, k: nat)
    requires UniqueEmails(users) && k < |users|
    ensures GetUserByEmail(users, users[k].email) == Some(users[k])
  {
    var email := users[k].email;
    forall i | 0 <= i < |users| && i != k
      ensures users[i].email != email
    {
      if i < k { assert users[i].email != users[k].email; } else { assert users[k].email != users[i].email; }
    }
    FirstIsTheOnlyMatch(users, (u: User) => u.email == email, k);
  }

  function Public(u: User): PublicUser
  {
    PublicUser(u.id, u.name, u.phone, u.email, u.balance)
  }

  /** `getAllUsers`: every user in table order, without the password column. */
  function GetAllUsers(users: seq<User>): (r: seq<PublicUser>)
    ensures |r| == |users|
    ensures forall i :: 0 <= i < |users| ==>
              r[i].id == users[i].id && r[i].name == users[i].name && r[i].phone == users[i].phone
              && r[i].email == users[i].email && r[i].balance == users[i].balance
  {
    if users == [] then [] else [Public(users[0])] + GetAllUsers(users[1..])
  }

  /** `WHERE t.sender_id = ? OR t.receiver_id = ?` */
  predicate Involves(t: Transaction, userId: nat)
  {
    t.senderId == userId || t.receiverId == userId
  }

  /** The inner joins with `users` for the sender and the receiver; nothing when either is missing. */
  function JoinParties(users: seq<User>, t: Transaction): (r: Option<HistoryRow>)
    ensures r.Some? <==> GetUserById(users, t.senderId).Some? && GetUserById(users, t.receiverId).Some?
    ensures r.Some? ==> r.value.id == t.id && r.value.amount == t.amount && r.value.status == t.status
                        && r.value.timestamp == t.timestamp
                        && r.value.senderEmail == GetUserById(users, t.senderId).value.email
                        && r.value.receiverEmail == GetUserById(users, t.receiverId).value.email
                        && r.value.senderName == GetUserById(users, t.senderId).value.name
                        && r.value.receiverName == GetUserById(users, t.receiverId).value.name
  {
    match (GetUserById(users, t.senderId), GetUserById(users, t.receiverId))
    case (Some(s), Some(v)) =>
      Some(HistoryRow(t.id, t.amount, t.status, t.timestamp, s.name, s.email, v.name, v.email))
    case _ => None
  }

  /** With unique emails, two rows of the table with one email are the same row. */
  lemma {:induction false} EmailsIdentify(users: seq<User>, a: User, b: User)
    requires UniqueEmails(users) && a in users && b in users && a.email == b.email
    ensures a == b
  {
    var i :| 0 <= i < |users| && users[i] == a;
    var j :| 0 <= j < |users| && users[j] == b;
  }

  /** The joined rows of the transactions that involve `userId`, in table order. */
  function Candidates(users: seq<User>, txs: seq<Transaction>, userId: nat): (r: seq<HistoryRow>)
    ensures forall row :: row in r ==>
              exists t :: t in txs && Involves(t, userId) && JoinParties(users, t) == Some(row)
    ensures forall t :: t in txs && Involves(t, userId) && JoinParties(users, t).Some? ==>
              JoinParties(users, t).value in r
  {
    if txs == [] then []
    else
      var rest := Candidates(users, txs[1..], userId);
      assert forall t :: t in txs[1..] ==> t in txs;
      assert forall t :: t in txs ==> t == txs[0] || t in txs[1..];
      if Involves(txs[0], userId) && JoinParties(users, txs[0]).Some? then
        [JoinParties(users, txs[0]).value] + rest
      else rest
  }

  function RowTime(r: HistoryRow): int { r.timestamp }

  /** `getTransactionsByUserId`: `ORDER BY t.timestamp DESC LIMIT 50` over the candidates. */
  function GetTransactionsByUserId(users: seq<User>, txs: seq<Transaction>, userId: nat): (r: seq<HistoryRow>)
    ensures |r| <= HISTORY_LIMIT
    ensures forall i, j :: 0 <= i < j < |r| ==> r[i].timestamp >= r[j].timestamp
  {
    var sorted := Sorting.SortDesc(Candidates(users, txs, userId), RowTime);
    sorted[..Min(HISTORY_LIMIT, |sorted|)]
  }

  /** The history holds only rows of the user's own transactions, each at most as often as it
      occurs among them, newest first, at most 50, as many as there are (up to 50), and every
      row it leaves out is no newer than its last. */
  lemma {:induction false} HistoryIsNewestFifty(users: seq<User>, txs: seq<Transaction>, userId: nat)
    ensures var r := GetTransactionsByUserId(users, txs, userId);
            var c := Candidates(users, txs, userId);
            && |r| == Min(HISTORY_LIMIT, |c|)
            && (forall i, j :: 0 <= i < j < |r| ==> r[i].timestamp >= r[j].timestamp)
            && (forall row :: row in r ==> row in c)
            && multiset(r) <= multiset(c)
            && (forall row :: row in c && row !in r ==>
                  |r| == HISTORY_LIMIT && row.timestamp <= r[|r| - 1].timestamp)
  {
    var c := Candidates(users, txs, userId);
    var s := Sorting.SortDesc(c, RowTime);
    TopOfSorted(c, s, Min(HISTORY_LIMIT, |s|));
  }

  /** A prefix holds each row at most as often as the whole sequence does. */
  lemma PrefixMultiset(s: seq<HistoryRow>, k: nat)
    requires k <= |s|
    ensures multiset(s[..k]) <= multiset(s)
  {
    assert s == s[..k] + s[k..];
  }

  /** The first `k` rows of the candidates sorted newest first. */
  lemma {:induction false} TopOfSorted(c: seq<HistoryRow>, s: seq<HistoryRow>, k: nat)
    requires s == Sorting.SortDesc(c, RowTime) && k <= |s|
    ensures forall i, j :: 0 <= i < j < k ==> s[i].timestamp >= s[j].timestamp
    ensures forall row :: row in s[..k] ==> row in c
    ensures multiset(s[..k]) <= multiset(c)
    ensures forall row :: row in c && row !in s[..k] ==>
              k < |s| && (0 < k ==> row.timestamp <= s[k - 1].timestamp)
  {
    forall i, j | 0 <= i < j < k ensures s[i].timestamp >= s[j].timestamp {
      assert RowTime(s[i]) >= RowTime(s[j]);
    }
    Sorting.SortDescMembers(c, RowTime);
    PrefixMultiset(s, k);
    forall row | row in c && row !in s[..k]
      ensures k < |s| && (0 < k ==> row.timestamp <= s[k - 1].timestamp)
    {
      BeyondTop(s, k, row);
    }
  }

  /** A row of a sorted sequence outside its first `k` sits at or after index `k`. */
  lemma {:induction false} BeyondTop(s: seq<HistoryRow>, k: nat, row: HistoryRow)
    requires Sorting.SortedDesc(s, RowTime) && k <= |s| && row in s && row !in s[..k]
    ensures k < |s| && (0 < k ==> row.timestamp <= s[k - 1].timestamp)
  {
    var j :| 0 <= j < |s| && s[j] == row;
    assert forall i :: 0 <= i < k ==> s[..k][i] == s[i];
    assert j >= k;
    if 0 < k { assert RowTime(s[k - 1]) >= RowTime(s[j]); }
  }

  // ----- OTP table and attempt log ------------------------------------------

  /** `getOTPById`. */
  function GetOtpById(otps: seq<OtpRow>, id: nat): (r: Option<OtpRow>)
    ensures r.Some? ==> r.value in otps && r.value.id == id
    ensures r.None? <==> forall i :: 0 <= i < |otps| ==> otps[i].id != id
  {
    First(otps, (o: OtpRow) => o.id == id)
  }

  /** A failure of `userId` inside the trailing window of `windowMinutes` ending at `now`. */
  predicate InWindowFailure(a: Attempt, userId: nat, windowMinutes: nat, now: int)
  {
    !a.success && a.userId == userId && now - windowMinutes * 60000 < a.attemptedAt
  }

  function AttemptTime(a: Attempt): int { a.attemptedAt }

  /** `getRecentFailedAttempts(userId, minutes)`: that user's failures in the window, newest first. */
  function GetRecentFailedAttempts(attempts: seq<Attempt>, userId: nat, windowMinutes: nat, now: int)
    : (r: seq<Attempt>)
    ensures forall a :: a in r ==> a in attempts && InWindowFailure(a, userId, windowMinutes, now)
    ensures forall i :: 0 <= i < |attempts| && InWindowFailure(attempts[i], userId, windowMinutes, now)
              ==> attempts[i] in r
    ensures forall i, j :: 0 <= i < j < |r| ==> r[i].attemptedAt >= r[j].attemptedAt
    ensures |r| == |Filter(attempts, (a: Attempt) => InWindowFailure(a, userId, windowMinutes, now))|
  {
    var f := Filter(attempts, (a: Attempt) => InWindowFailure(a, userId, windowMinutes, now));
    var r := Sorting.SortDesc(f, AttemptTime);
    Sorting.SortDescMembers(f, AttemptTime);
    assert forall i, j :: 0 <= i < j < |r| ==> AttemptTime(r[i]) >= AttemptTime(r[j]);
    r
  }

  /** A challenge of the user that is still waiting for its code and has not expired. */
  predicate ActiveFor(o: OtpRow, userId: nat, now: int)
  {
    o.userId == userId && !o.verified && now <= o.expiresAt
  }

  /** `getActiveOTPByUserId`: the first active challenge of the user, if there is one. */
  function GetActiveOtpByUserId(otps: seq<OtpRow>, userId: nat, now: int): (r: Option<OtpRow>)
    ensures r.Some? ==> r.value in otps && r.value.userId == userId && !r.value.verified
                        && now <= r.value.expiresAt
    ensures r.None? <==> forall i :: 0 <= i < |otps| ==>
                           otps[i].userId != userId || otps[i].verified || otps[i].expiresAt < now
  {
    First(otps, (o: OtpRow) => ActiveFor(o, userId, now))
  }

  /** Rows the periodic sweep deletes: unverified and past expiry. */
  predicate Sweepable(o: OtpRow, now: int)
  {
    !o.verified && o.expiresAt < now
  }

  // ----- row updates --------------------------------------------------------

  /** `UPDATE users SET balance = ? WHERE id = ?` on the table's value. */
  function SetBalance(users: seq<User>, id: nat, balance: int): (r: seq<User>)
    ensures |r| == |users|
    ensures forall i :: 0 <= i < |users| ==> r[i].(balance := users[i].balance) == users[i]
    ensures forall i :: 0 <= i < |users| ==>
              r[i].balance == if users[i].id == id then balance else users[i].balance
  {
    seq(|users|, i requires 0 <= i < |users| =>
      if users[i].id == id then users[i].(balance := balance) else users[i])
  }

  /** Setting one row's balance moves the total by exactly the change of that row. */
  lemma {:induction false} TotalAfterSetBalance(users: seq<User>, k: nat, balance: int)
    requires UniqueIds(users) && k < |users|
    ensures TotalBalance(SetBalance(users, users[k].id, balance))
            == TotalBalance(users) - users[k].balance + balance
  {
    var id := users[k].id;
    var r := SetBalance(users, id, balance);
    assert r[1..] == SetBalance(users[1..], id, balance);
    if k == 0 {
      assert forall i :: 0 <= i < |users[1..]| ==> users[1..][i].id != id by {
        forall i | 0 <= i < |users[1..]| ensures users[1..][i].id != id {
          assert users[0].id != users[i + 1].id;
        }
      }
      SetBalanceAbsent(users[1..], id, balance);
    } else {
      assert users[1..][k - 1] == users[k];
      TotalAfterSetBalance(users[1..], k - 1, balance);
    }
  }

  /** Updating an id that no row carries changes nothing. */
  lemma {:induction false} SetBalanceAbsent(users: seq<User>, id: nat, balance: int)
    requires forall i :: 0 <= i < |users| ==> users[i].id != id
    ensures SetBalance(users, id, balance) == users
  {
    if users != [] {
      SetBalanceAbsent(users[1..], id, balance);
    }
  }

  /** `UPDATE otps SET verified = 1 WHERE id = ?` */
  function MarkVerified(otps: seq<OtpRow>, id: nat): (r: seq<OtpRow>)
    ensures |r| == |otps|
    ensures forall i :: 0 <= i < |otps| ==>
              r[i] == if otps[i].id == id then otps[i].(verified := true) else otps[i]
  {
    seq(|otps|, i requires 0 <= i < |otps| =>
      if otps[i].id == id then otps[i].(verified := true) else otps[i])
  }

  /** `UPDATE otps SET transaction_id = ? WHERE id = ?` */
  function LinkTransaction(otps: seq<OtpRow>, id: nat, txId: nat): (r: seq<OtpRow>)
    ensures |r| == |otps|
    ensures forall i :: 0 <= i < |otps| ==>
              r[i] == if otps[i].id == id then otps[i].(transactionId := Some(txId)) else otps[i]
  {
    seq(|otps|, i requires 0 <= i < |otps| =>
      if otps[i].id == id then otps[i].(transactionId := Some(txId)) else otps[i])
  }

  /** The in-memory database behind one SQLite connection. */
  class Database {
    var users: seq<User>
    var transactions: seq<Transaction>
    var nextTxId: nat
    var otps: seq<OtpRow>
    var nextOtpId: nat
    var attempts: seq<Attempt>
    /** The state saved by `BEGIN TRANSACTION`, while a transaction is open. */
    var savepoint: Option<Tables>

    function Current(): Tables
      reads this
    {
      Tables(users, transactions, nextTxId, otps, nextOtpId, attempts)
    }

    ghost predicate Valid()
      reads this
    {
      Current().WellFormed() && (savepoint.Some? ==> savepoint.value.WellFormed())
    }

    /** A database provisioned with `users` and empty other tables. */
    constructor (users: seq<User>)
      requires UniqueIds(users) && UniqueEmails(users)
      ensures Valid() && savepoint.None?
      ensures Current() == Tables(users, [], 1, [], 1, [])
    {
      this.users := users;
      transactions, nextTxId := [], 1;
      otps, nextOtpId := [], 1;
      attempts := [];
      savepoint := None;
    }

    /** `updateUserBalance(balance, id)`: only that row's balance changes. */
    method UpdateUserBalance(balance: int, id: nat)
      requires Valid()
      modifies this
      ensures Valid()
      ensures Current() == old(Current()).(users := SetBalance(old(users), id, balance))
      ensures savepoint == old(savepoint)
    {
      users := SetBalance(users, id, balance);
      assert UniqueIds(users) by {
        forall i, j | 0 <= i < j < |users| ensures users[i].id != users[j].id {
          assert users[i].id == old(users)[i].id && users[j].id == old(users)[j].id;
        }
      }
      assert UniqueEmails(users) by {
        forall i, j | 0 <= i < j < |users| ensures users[i].email != users[j].email {
          assert users[i].email == old(users)[i].email && users[j].email == old(users)[j].email;
        }
      }
    }

    /** `insertTransaction`: appends one row and returns its fresh `lastID`. The row is stamped
        with `now`, where the source leaves the stamp to the column default. */
    method InsertTransaction(senderId: nat, receiverId: nat, amount: int, status: string, now: int)
      returns (lastId: nat)
      requires Valid()
      modifies this
      ensures Valid() && savepoint == old(savepoint)
      ensures lastId == old(nextTxId) && lastId >= 1
      ensures forall i :: 0 <= i < |old(transactions)| ==> old(transactions)[i].id != lastId
      ensures Current() == old(Current()).(
                transactions := old(transactions) + [Transaction(lastId, senderId, receiverId, amount, status, now)],
                nextTxId := lastId + 1)
    {
      lastId := nextTxId;
      transactions := transactions + [Transaction(lastId, senderId, receiverId, amount, status, now)];
      nextTxId := nextTxId + 1;
    }

    /** `insertOTP`: appends one challenge, unverified and unlinked, and returns its id. */
    method InsertOtp(userId: nat, code: string, receiverId: nat, amount: int, expiresAt: int)
      returns (lastId: nat)
      requires Valid()
      modifies this
      ensures Valid() && savepoint == old(savepoint)
      ensures lastId == old(nextOtpId) && lastId >= 1
      ensures forall i :: 0 <= i < |old(otps)| ==> old(otps)[i].id != lastId
      ensures Current() == old(Current()).(
                otps := old(otps) + [OtpRow(lastId, userId, code, receiverId, amount, expiresAt, false, None)],
                nextOtpId := lastId + 1)
    {
      lastId := nextOtpId;
      otps := otps + [OtpRow(lastId, userId, code, receiverId, amount, expiresAt, false, None)];
      nextOtpId := nextOtpId + 1;
    }

    /** `verifyOTP(otpId)`: marks the challenge used. */
    method VerifyOtp(id: nat)
      requires Valid()
      modifies this
      ensures Valid() && savepoint == old(savepoint)
      ensures Current() == old(Current()).(otps := MarkVerified(old(otps), id))
    {
      otps := MarkVerified(otps, id);
    }

    /** `updateOTPTransactionId(otpId, txId)`. */
    method UpdateOtpTransactionId(id: nat, txId: nat)
      requires Valid()
      modifies this
      ensures Valid() && savepoint == old(savepoint)
      ensures Current() == old(Current()).(otps := LinkTransaction(old(otps), id, txId))
    {
      otps := LinkTransaction(otps, id, txId);
    }

    /** `insertOTPAttempt`: appends one record to the log. */
    method InsertOtpAttempt(userId: nat, otpId: nat, code: string, success: bool, ip: string, now: int)
      requires Valid()
      modifies this
      ensures Valid() && savepoint == old(savepoint)
      ensures Current() == old(Current()).(
                attempts := old(attempts) + [Attempt(userId, otpId, code, success, ip, now)])
    {
      attempts := attempts + [Attempt(userId, otpId, code, success, ip, now)];
    }

    /** `cleanupExpiredOTPs`: deletes the unverified challenges past expiry. */
    method CleanupExpiredOtps(now: int)
      requires Valid()
      modifies this
      ensures Valid() && savepoint == old(savepoint)
      ensures Current() == old(Current()).(otps := Filter(old(otps), (o: OtpRow) => !Sweepable(o, now)))
    {
      otps := Filter(otps, (o: OtpRow) => !Sweepable(o, now));
      assert forall i :: 0 <= i < |otps| ==> otps[i] in old(otps);
    }

    /** `BEGIN TRANSACTION`. */
    method Begin()
      requires Valid() && savepoint.None?
      modifies this
      ensures Valid()
      ensures Current() == old(Current()) && savepoint == Some(old(Current()))
    {
      savepoint := Some(Current());
    }

    /** `COMMIT`: the changes since `Begin` stay. */
    method Commit()
      requires Valid() && savepoint.Some?
      modifies this
      ensures Valid()
      ensures Current() == old(Current()) && savepoint.None?
    {
      savepoint := None;
    }

    /** `ROLLBACK`: every table, id counters included, returns to its state at `Begin`. */
    method Rollback()
      requires Valid() && savepoint.Some?
      modifies this
      ensures Valid()
      ensures Current() == old(savepoint.value) && savepoint.None?
    {
      var t := savepoint.value;
      users, transactions, nextTxId := t.users, t.transactions, t.nextTxId;
      otps, nextOtpId, attempts := t.otps, t.nextOtpId, t.attempts;
      savepoint := None;
    }
  }

  /** After `verifyOTP(id)` the lookup of `id` finds the same row, now consumed. */
  lemma {:induction false} LookupAfterMark(otps: seq<OtpRow>, id: nat)
    requires GetOtpById(otps, id).Some?
    ensures GetOtpById(MarkVerified(otps, id), id) == Some(GetOtpById(otps, id).value.(verified := true))
  {
    var r := MarkVerified(otps, id);
    if otps[0].id != id {
      assert r[1..] == MarkVerified(otps[1..], id);
      LookupAfterMark(otps[1..], id);
    }
  }

  /** After `updateOTPTransactionId(id, txId)` the lookup of `id` finds the same row, now linked. */
  lemma {:induction false} LookupAfterLink(otps: seq<OtpRow>, id: nat, txId: nat)
    requires GetOtpById(otps, id).Some?
    ensures GetOtpById(LinkTransaction(otps, id, txId), id)
            == Some(GetOtpById(otps, id).value.(transactionId := Some(txId)))
  {
    var r := LinkTransaction(otps, id, txId);
    if otps[0].id != id {
      assert r[1..] == LinkTransaction(otps[1..], id, txId);
      LookupAfterLink(otps[1..], id, txId);
    }
  }

  /** A row inserted under a fresh id is what the lookup of that id returns. */
  lemma {:induction false} LookupInserted(otps: seq<OtpRow>, row: OtpRow)
    requires forall i :: 0 <= i < |otps| ==> otps[i].id != row.id
    ensures GetOtpById(otps + [row], row.id) == Some(row)
  {
    FirstIsTheOnlyMatch(otps + [row], (o: OtpRow) => o.id == row.id, |otps|);
  }

  /** The sweep only deletes challenges that verification would reject as expired at any later
      instant, so it never removes one that could still be redeemed. */
  lemma {:induction false} SweepKeepsRedeemable(otps: seq<OtpRow>, sweepAt: int, laterNow: int, id: nat)
    requires sweepAt <= laterNow
    requires GetOtpById(otps, id).Some?
    requires !GetOtpById(otps, id).value.verified && laterNow <= GetOtpById(otps, id).value.expiresAt
    ensures GetOtpById(otps, id).value in Filter(otps, (o: OtpRow) => !Sweepable(o, sweepAt))
  {
    var o := GetOtpById(otps, id).value;
    var i :| 0 <= i < |otps| && otps[i] == o;
    assert !Sweepable(otps[i], sweepAt);
  }
}

=== FILE: notify.dfy ===
/**
 * The notification dispatcher of server.js: the `sseClients` map from an
 * account to its one open event stream, and `sendSSENotification`. Each
 * open stream is named by a `Channel`; what has been written to the
 * streams is kept, in order, in `written`.
 */
module Notify {

  /** One open event stream (the `res` object of an `/api/events` request). */
  type Channel = nat

  /** The `type` field of every message written to a stream, with its payload. */
  datatype Event =
    | Connected
    | OtpGenerated(otpId: nat, code: string, expiresIn: nat, recipientName: string,
                   recipientEmail: string, amount: int)
    | OtpLockout(lockoutMinutes: nat)
    | PaymentSuccess(transactionId: nat, amount: int, recipient: string, newBalance: int)
    | PaymentReceived(amount: int, sender: string, newBalance: int)

  datatype Delivery = Delivery(channel: Channel, event: Event)

  /** What `sendSSENotification(userId, event)` writes: to the registered stream, or nothing. */
  function Deliveries(clients: map<nat, Channel>, userId: nat, event: Event): (r: seq<Delivery>)
    ensures userId !in clients <==> r == []
    ensures userId in clients ==> r == [Delivery(clients[userId], event)]
  {
    if userId in clients then [Delivery(clients[userId], event)] else []
  }

  class Registry {
    var clients: map<nat, Channel>
    var written: seq<Delivery>

    /** `new Map()`: nobody is subscribed and nothing has been written. */
    constructor ()
      ensures clients == map[] && written == []
    {
      clients, written := map[], [];
    }

    /** `/api/events`: `sseClients.set(userId, res)`, replacing any earlier stream of the
        account, then the `connected` greeting on the new stream. */
    method Connect(userId: nat, channel: Channel)
      modifies this
      ensures clients == old(clients)[userId := channel]
      ensures written == old(written) + [Delivery(channel, Connected)]
    {
      clients := clients[userId := channel];
      written := written + [Delivery(channel, Connected)];
    }

    /** The close handler as written: `sseClients.delete(userId)`, whichever stream closed. */
    method Disconnect(userId: nat)
      modifies this
      ensures clients == old(clients) - {userId}
      ensures written == old(written)
    {
      clients := clients - {userId};
    }

    /** The close handler as evidently intended: the entry goes only if it is still the
        stream that closed, so closing an older stream leaves a newer one registered. */
    method DisconnectChannel(userId: nat, channel: Channel)
      modifies this
      ensures userId in old(clients) && old(clients)[userId] == channel ==> clients == old(clients) - {userId}
      ensures !(userId in old(clients) && old(clients)[userId] == channel) ==> clients == old(clients)
      ensures written == old(written)
    {
      if userId in clients && clients[userId] == channel {
        clients := clients - {userId};
      }
    }

    /** `sendSSENotification`: one write to the account's stream, a no-op without one. */
    method Send(userId: nat, event: Event)
      modifies this
      ensures clients == old(clients)
      ensures written == old(written) + Deliveries(old(clients), userId, event)
    {
      if userId in clients {
        written := written + [Delivery(clients[userId], event)];
      }
    }
  }

  /** Two tabs of one account: the second stream replaces the first, then the first tab
      closes. As written, the account is left with no registered stream although the
      second one is still open, so its notifications are lost. */
  method StaleCloseDropsLiveStream() returns (reg: Registry)
    ensures fresh(reg)
    ensures 7 !in reg.clients
  {
    reg := new Registry();
    reg.Connect(7, 1);
    reg.Connect(7, 2);
    reg.Disconnect(7);
  }

  /** The same sequence with the corrected close handler keeps the live stream. */
  method StaleCloseKeepsLiveStream() returns (reg: Registry)
    ensures fresh(reg)
    ensures 7 in reg.clients && reg.clients[7] == 2
  {
    reg := new Registry();
    reg.Connect(7, 1);
    reg.Connect(7, 2);
    reg.DisconnectChannel(7, 1);
  }
}

=== FILE: payment_lemmas.dfy ===
/**
 * Properties of the payment endpoints: the transfer unit conserves money and
 * keeps every account solvent, each endpoint preserves the engine invariant
 * `Good`, a one-time code pays at most once, and wrong codes count down to a
 * lockout.
 */
module PaymentLemmas {
  import opened Common
  import opened Store
  import opened Throttle
  import opened Notify
  import opened Payments

  // ----- the transfer unit ----------------------------------------------------

  /** The row of `u` in a table with unique ids. */
  lemma {:induction false} IndexOf(users: seq<User>, u: User) returns (k: nat)
    requires u in users
    ensures k < |users| && users[k] == u
  {
    k :| 0 <= k < |users| && users[k] == u;
  }

  /** Moving money between two different accounts leaves the sum of balances unchanged. */
  lemma {:induction false} TransferConserves(t: Tables, p: User, q: User, amount: int, link: Option<nat>, now: int)
    requires UniqueIds(t.users) && p in t.users && q in t.users && p.id != q.id
    ensures TotalBalance(Transferred(t, p, q, amount, link, now).users) == TotalBalance(t.users)
  {
    MoveConserves(t.users, p, q, amount);
  }

  lemma {:induction false} MoveConserves(users: seq<User>, p: User, q: User, amount: int)
    requires UniqueIds(users) && p in users && q in users && p.id != q.id
    ensures TotalBalance(SetBalance(SetBalance(users, p.id, p.balance - amount), q.id, q.balance + amount))
            == TotalBalance(users)
  {
    var debited := SetBalance(users, p.id, p.balance - amount);
    RowTotal(users, p, p.balance - amount);
    DebitKeepsPayee(users, p, q, p.balance - amount);
    RowTotal(debited, q, q.balance + amount);
  }

  /** `TotalAfterSetBalance` for the row `u` rather than an index. */
  lemma {:induction false} RowTotal(users: seq<User>, u: User, balance: int)
    requires UniqueIds(users) && u in users
    ensures TotalBalance(SetBalance(users, u.id, balance)) == TotalBalance(users) - u.balance + balance
  {
    var k := IndexOf(users, u);
    TotalAfterSetBalance(users, k, balance);
  }

  /** Updating the payer's row leaves the payee's row in place and the ids unique. */
  lemma {:induction false} DebitKeepsPayee(users: seq<User>, p: User, q: User, balance: int)
    requires UniqueIds(users) && q in users && p.id != q.id
    ensures UniqueIds(SetBalance(users, p.id, balance)) && q in SetBalance(users, p.id, balance)
  {
    var m := IndexOf(users, q);
    SetBalanceKeepsIds(users, p.id, balance);
    assert SetBalance(users, p.id, balance)[m] == q;
  }

  lemma {:induction false} SetBalanceKeepsIds(users: seq<User>, id: nat, balance: int)
    requires UniqueIds(users)
    ensures UniqueIds(SetBalance(users, id, balance))
    ensures forall i :: 0 <= i < |users| ==> SetBalance(users, id, balance)[i].id == users[i].id
  {
    var r := SetBalance(users, id, balance);
    assert forall i :: 0 <= i < |users| ==> r[i].id == users[i].id;
  }

  /** The balances after a transfer: the payer's row loses `amount`, the payee's gains it,
      every other row keeps its balance, and no other column changes. */
  lemma {:induction false} TransferBalances(t: Tables, p: User, q: User, amount: int, link: Option<nat>, now: int)
    requires p.id != q.id
    ensures var u := Transferred(t, p, q, amount, link, now).users;
            && |u| == |t.users|
            && (forall i :: 0 <= i < |u| ==> u[i].(balance := t.users[i].balance) == t.users[i])
            && (forall i :: 0 <= i < |u| ==>
                  u[i].balance == if t.users[i].id == p.id then p.balance - amount
                                  else if t.users[i].id == q.id then q.balance + amount
                                  else t.users[i].balance)
  {
    var debited := SetBalance(t.users, p.id, p.balance - amount);
    assert forall i :: 0 <= i < |debited| ==> debited[i].id == t.users[i].id;
  }

  /** A transfer that the balance check admitted keeps the invariant, provided a linked
      challenge is already consumed. */
  lemma {:induction false} TransferKeepsGood(t: Tables, p: User, q: User, amount: int, link: Option<nat>, now: int)
    requires Good(t) && p in t.users && q in t.users && p.id != q.id && 0 < amount <= p.balance
    requires link.Some? ==> forall i :: 0 <= i < |t.otps| && t.otps[i].id == link.value ==> t.otps[i].verified
    ensures Good(Transferred(t, p, q, amount, link, now))
  {
    var r := Transferred(t, p, q, amount, link, now);
    TransferBalances(t, p, q, amount, link, now);
    assert forall i :: 0 <= i < |r.users| ==> r.users[i].id == t.users[i].id && r.users[i].email == t.users[i].email;
    assert NonNegative(r.users) by {
      var k := IndexOf(t.users, q);
      assert q.balance >= 0;
      forall i | 0 <= i < |r.users| ensures r.users[i].balance >= 0 {
        assert t.users[i].balance >= 0;
      }
    }
    assert r.WellFormed();
    assert LedgerWellFormed(r.transactions) by {
      forall i | 0 <= i < |r.transactions|
        ensures r.transactions[i].amount > 0 && r.transactions[i].senderId != r.transactions[i].receiverId
                && r.transactions[i].status == COMPLETED
      {
        if i < |t.transactions| {
          assert r.transactions[i] == t.transactions[i];
        }
      }
    }
  }

  // ----- /api/send-payment ----------------------------------------------------

  /** Send-payment keeps the invariant and the total of all balances. */
  lemma {:induction false} SendPaymentPreserves(t: Tables, senderId: nat, receiverEmail: string, amount: int, now: int, fault: Fault)
    requires Good(t)
    ensures var o := SendPaymentOutcome(t, senderId, receiverEmail, amount, now, fault);
            Good(o.tables) && TotalBalance(o.tables.users) == TotalBalance(t.users)
  {
    var c := SendPaymentCheck(t.users, senderId, receiverEmail, amount);
    if c.Cleared? && Commits(fault, None) {
      TransferKeepsGood(t, c.payer, c.payee, amount, None, now);
      TransferConserves(t, c.payer, c.payee, amount, None, now);
    }
  }

  /** Send-payment pays exactly when every check passes and the unit commits, and on any
      failure writes nothing. */
  lemma {:induction false} SendPaymentRefusal(t: Tables, senderId: nat, receiverEmail: string, amount: int, now: int, fault: Fault)
    ensures var o := SendPaymentOutcome(t, senderId, receiverEmail, amount, now, fault);
            var c := SendPaymentCheck(t.users, senderId, receiverEmail, amount);
            && o.deliveries == []
            && (o.response.Paid? <==> c.Cleared? && Commits(fault, None))
            && (c.Rejected? ==> o.tables == t && o.response == Refused(c.failure))
            && (c.Cleared? && !Commits(fault, None) ==> o.tables == t && o.response == Refused(ExecutionFailure))
  {
    var c := SendPaymentCheck(t.users, senderId, receiverEmail, amount);
    if c.Cleared? {
      assert c == Cleared(c.payer, c.payee);
    }
  }

  /** A payment debits the sender and credits the receiver by `amount`, appends one completed
      row between them, reports the sender's new balance, and touches no other table. */
  lemma {:induction false} SendPaymentEffect(t: Tables, senderId: nat, receiverEmail: string, amount: int, now: int, fault: Fault)
    requires UniqueIds(t.users)
    ensures var o := SendPaymentOutcome(t, senderId, receiverEmail, amount, now, fault);
            var c := SendPaymentCheck(t.users, senderId, receiverEmail, amount);
            o.response.Paid? ==>
              var s, v := c.payer, c.payee;
              && o.tables.transactions == t.transactions + [Transaction(t.nextTxId, senderId, v.id, amount, COMPLETED, now)]
              && GetUserById(o.tables.users, senderId) == Some(s.(balance := s.balance - amount))
              && GetUserById(o.tables.users, v.id) == Some(v.(balance := v.balance + amount))
              && o.response.receipt.newBalance == s.balance - amount
              && o.tables.otps == t.otps && o.tables.attempts == t.attempts
  {
    var c := SendPaymentCheck(t.users, senderId, receiverEmail, amount);
    SendPaymentTransfers(t, senderId, receiverEmail, amount, now, fault);
    if c.Cleared? && Commits(fault, None) {
      TransferLookups(t, c.payer, c.payee, amount, None, now);
    }
  }

  /** A paid send-payment ends in the committed transfer unit between the cleared rows. */
  lemma {:induction false} SendPaymentTransfers(t: Tables, senderId: nat, receiverEmail: string, amount: int, now: int, fault: Fault)
    ensures var o := SendPaymentOutcome(t, senderId, receiverEmail, amount, now, fault);
            var c := SendPaymentCheck(t.users, senderId, receiverEmail, amount);
            o.response.Paid? ==>
              && c.Cleared? && o.tables == Transferred(t, c.payer, c.payee, amount, None, now)
              && o.response.receipt == Receipt(None, c.payer.name, c.payee.name, amount, c.payer.balance - amount)
  {
  }

  /** After a transfer between two accounts of a table with unique ids, looking either one up
      finds its row with the new balance. */
  lemma {:induction false} TransferLookups(t: Tables, p: User, q: User, amount: int, link: Option<nat>, now: int)
    requires UniqueIds(t.users) && p in t.users && q in t.users && p.id != q.id
    ensures var u := Transferred(t, p, q, amount, link, now).users;
            && GetUserById(u, p.id) == Some(p.(balance := p.balance - amount))
            && GetUserById(u, q.id) == Some(q.(balance := q.balance + amount))
  {
    var u := Transferred(t, p, q, amount, link, now).users;
    TransferBalances(t, p, q, amount, link, now);
    var k := IndexOf(t.users, p);
    var m := IndexOf(t.users, q);
    SetBalanceKeepsIds(t.users, p.id, p.balance - amount);
    SetBalanceKeepsIds(SetBalance(t.users, p.id, p.balance - amount), q.id, q.balance + amount);
    assert u[k] == p.(balance := p.balance - amount);
    assert u[m] == q.(balance := q.balance + amount);
    GetUserByIdUnique(u, k);
    GetUserByIdUnique(u, m);
  }

  // ----- /api/request-otp -----------------------------------------------------

  /** Request-OTP moves no money: it writes one fresh, unconsumed challenge for exactly the
      amount and receiver that passed the checks, expiring five minutes later, announces it on
      the sender's stream, and on any failure writes nothing. */
  lemma {:induction false} RequestOtpEffect(t: Tables, clients: map<nat, Channel>, senderId: nat, receiverEmail: string,
                         amount: int, now: int, code: string)
    requires t.WellFormed()
    ensures var o := RequestOtpOutcome(t, clients, senderId, receiverEmail, amount, now, code);
            var c := RequestOtpCheck(t.users, t.attempts, senderId, receiverEmail, amount, now);
            && o.tables.users == t.users && o.tables.transactions == t.transactions
            && o.tables.attempts == t.attempts
            && (o.response.OtpIssued? <==> c.Cleared?)
            && (c.Rejected? ==> o.tables == t && o.deliveries == [] && o.response == OtpRefused(c.failure))
            && (c.Cleared? ==>
                  var row := OtpRow(t.nextOtpId, senderId, code, c.payee.id, amount, now + EXPIRY_MS, false, None);
                  && o.tables.otps == t.otps + [row]
                  && GetOtpById(o.tables.otps, t.nextOtpId) == Some(row)
                  && o.response.otpId == t.nextOtpId
                  && o.deliveries == Deliveries(clients, senderId, OtpGenerated(t.nextOtpId, code, EXPIRY_MINUTES,
                                                                                 c.payee.name, c.payee.email, amount)))
  {
    var c := RequestOtpCheck(t.users, t.attempts, senderId, receiverEmail, amount, now);
    if c.Cleared? {
      var row := OtpRow(t.nextOtpId, senderId, code, c.payee.id, amount, now + EXPIRY_MS, false, None);
      LookupInserted(t.otps, row);
    }
  }

  /** Request-OTP keeps the invariant: the new challenge moves a positive amount between
      two different accounts and its id is the next free one. */
  lemma {:induction false} RequestOtpPreserves(t: Tables, clients: map<nat, Channel>, senderId: nat, receiverEmail: string,
                            amount: int, now: int, code: string)
    requires Good(t)
    ensures Good(RequestOtpOutcome(t, clients, senderId, receiverEmail, amount, now, code).tables)
  {
    var c := RequestOtpCheck(t.users, t.attempts, senderId, receiverEmail, amount, now);
    if c.Cleared? {
      var row := OtpRow(t.nextOtpId, c.payer.id, code, c.payee.id, amount, now + EXPIRY_MS, false, None);
      assert RequestOtpOutcome(t, clients, senderId, receiverEmail, amount, now, code).tables
             == t.(otps := t.otps + [row], nextOtpId := t.nextOtpId + 1);
      IssueKeepsGood(t, row);
    }
  }

  /** Appending a fresh, unconsumed challenge between two accounts keeps the invariant. */
  lemma {:induction false} IssueKeepsGood(t: Tables, row: OtpRow)
    requires Good(t) && row.id == t.nextOtpId && row.amount > 0 && row.userId != row.receiverId
    requires !row.verified && row.transactionId.None?
    ensures Good(t.(otps := t.otps + [row], nextOtpId := t.nextOtpId + 1))
  {
    var otps := t.otps + [row];
    assert forall i :: 0 <= i < |t.otps| ==> otps[i] == t.otps[i];
    assert otps[|t.otps|] == row;
  }

  // ----- /api/verify-otp ------------------------------------------------------

  /** Consuming a challenge and logging an attempt keep the invariant. */
  lemma {:induction false} ConsumeKeepsGood(t: Tables, otpId: nat, a: Attempt)
    requires Good(t)
    ensures Good(t.(attempts := t.attempts + [a], otps := MarkVerified(t.otps, otpId)))
  {
    var otps := MarkVerified(t.otps, otpId);
    assert forall i :: 0 <= i < |otps| ==> otps[i].(verified := t.otps[i].verified) == t.otps[i];
  }

  /** The step `/api/verify-otp` takes on these inputs. */
  function StepOf(t: Tables, userId: nat, otpId: nat, code: string, now: int): VerifyStep
  {
    VerifyCheck(IsUserLockedOut(t.attempts, userId, now), GetOtpById(t.otps, otpId), userId, otpId, code, now)
  }

  /** Redeeming a challenge of a well-formed state keeps the invariant and the total, once
      every row under its id is consumed. */
  lemma {:induction false} RedeemPreserves(used: Tables, clients: map<nat, Channel>, userId: nat, otpId: nat, row: OtpRow,
                        now: int, fault: Fault)
    requires Good(used) && row.amount > 0 && row.userId != row.receiverId
    requires forall i :: 0 <= i < |used.otps| && used.otps[i].id == otpId ==> used.otps[i].verified
    ensures var o := Redeem(used, clients, userId, otpId, row, now, fault);
            Good(o.tables) && TotalBalance(o.tables.users) == TotalBalance(used.users)
  {
    var sp, rp := GetUserById(used.users, row.userId), GetUserById(used.users, row.receiverId);
    if sp.Some? && rp.Some? && sp.value.balance >= row.amount && Commits(fault, Some(otpId)) {
      TransferKeepsGood(used, sp.value, rp.value, row.amount, Some(otpId), now);
      TransferConserves(used, sp.value, rp.value, row.amount, Some(otpId), now);
    }
  }

  /** Verify-OTP keeps the invariant and the total of all balances. */
  lemma {:induction false} VerifyOtpPreserves(t: Tables, clients: map<nat, Channel>, userId: nat, otpId: nat, code: string,
                           ip: string, now: int, fault: Fault)
    requires Good(t)
    ensures var o := VerifyOtpOutcome(t, clients, userId, otpId, code, ip, now, fault);
            Good(o.tables) && TotalBalance(o.tables.users) == TotalBalance(t.users)
  {
    var o := VerifyOtpOutcome(t, clients, userId, otpId, code, ip, now, fault);
    match StepOf(t, userId, otpId, code, now)
    case Refuse(_) =>
      assert o.tables == t;
    case ExpiredAttempt =>
      assert o.tables == t.(attempts := t.attempts + [FailedAttempt(userId, otpId, code, ip, now)]);
    case WrongCode =>
      assert o.tables == t.(attempts := t.attempts + [FailedAttempt(userId, otpId, code, ip, now)]);
    case Accepted(row) =>
      AcceptedPreserves(t, clients, userId, otpId, code, ip, now, fault, row);
  }

  /** The accepted branch of `VerifyOtpPreserves`: consuming, then redeeming, keeps `Good`. */
  lemma {:induction false} AcceptedPreserves(t: Tables, clients: map<nat, Channel>, userId: nat, otpId: nat,
                                             code: string, ip: string, now: int, fault: Fault, row: OtpRow)
    requires Good(t) && StepOf(t, userId, otpId, code, now) == Accepted(row)
    ensures var o := VerifyOtpOutcome(t, clients, userId, otpId, code, ip, now, fault);
            Good(o.tables) && TotalBalance(o.tables.users) == TotalBalance(t.users)
  {
    var a := Attempt(userId, otpId, code, true, ip, now);
    var used := t.(attempts := t.attempts + [a], otps := MarkVerified(t.otps, otpId));
    AcceptedOutcome(t, clients, userId, otpId, code, ip, now, fault, row);
    ConsumeKeepsGood(t, otpId, a);
    var i :| 0 <= i < |t.otps| && t.otps[i] == row;
    RedeemPreserves(used, clients, userId, otpId, row, now, fault);
  }

  /** The outcome of an accepted code, written out: the success is logged, the challenge
      consumed, and the rest is `Redeem`. */
  lemma AcceptedOutcome(t: Tables, clients: map<nat, Channel>, userId: nat, otpId: nat, code: string,
                        ip: string, now: int, fault: Fault, row: OtpRow)
    requires StepOf(t, userId, otpId, code, now) == Accepted(row)
    ensures VerifyOtpOutcome(t, clients, userId, otpId, code, ip, now, fault)
            == Redeem(t.(attempts := t.attempts + [Attempt(userId, otpId, code, true, ip, now)],
                         otps := MarkVerified(t.otps, otpId)),
                      clients, userId, otpId, row, now, fault)
  {
  }

  /** What verify-OTP writes. A refusal before the expiry test writes nothing; an expired or
      wrong code only logs a failure. An accepted code consumes the challenge whatever happens
      next (a failed balance re-check or a failed unit leaves it consumed). A payment happens
      only for an accepted code and appends exactly the challenge's transfer, linked to it. */
  lemma {:induction false} VerifyOtpEffect(t: Tables, clients: map<nat, Channel>, userId: nat, otpId: nat, code: string,
                        ip: string, now: int, fault: Fault)
    requires Good(t)
    ensures var o := VerifyOtpOutcome(t, clients, userId, otpId, code, ip, now, fault);
            var step := StepOf(t, userId, otpId, code, now);
            && (step.Refuse? ==> o.tables == t && o.deliveries == [])
            && (step.ExpiredAttempt? || step.WrongCode? ==>
                  o.tables == t.(attempts := t.attempts + [FailedAttempt(userId, otpId, code, ip, now)]))
            && (step.Accepted? ==>
                  && o.tables.attempts == t.attempts + [Attempt(userId, otpId, code, true, ip, now)]
                  && GetOtpById(o.tables.otps, otpId).Some? && GetOtpById(o.tables.otps, otpId).value.verified)
            && (o.response.Refused? ==> o.tables.users == t.users && o.tables.transactions == t.transactions)
            && (o.response.Paid? ==>
                  && step.Accepted?
                  && o.tables.transactions == t.transactions + [Transaction(t.nextTxId, step.otp.userId,
                                                   step.otp.receiverId, step.otp.amount, COMPLETED, now)]
                  && GetOtpById(o.tables.otps, otpId)
                     == Some(step.otp.(verified := true, transactionId := Some(t.nextTxId))))
  {
    var o := VerifyOtpOutcome(t, clients, userId, otpId, code, ip, now, fault);
    match StepOf(t, userId, otpId, code, now)
    case Refuse(_) =>
    case ExpiredAttempt =>
    case WrongCode =>
    case Accepted(row) =>
      var a := Attempt(userId, otpId, code, true, ip, now);
      var used := t.(attempts := t.attempts + [a], otps := MarkVerified(t.otps, otpId));
      assert o == Redeem(used, clients, userId, otpId, row, now, fault);
      RedeemEffect(used, clients, userId, otpId, row, now, fault);
      LookupAfterMark(t.otps, otpId);
      if o.response.Paid? {
        LookupAfterLink(used.otps, otpId, t.nextTxId);
      }
  }

  /** Redeeming writes nothing more on a refusal, and on a payment exactly the transfer of the
      challenge's amount from its owner to its receiver, linked to the challenge. */
  lemma {:induction false} RedeemEffect(used: Tables, clients: map<nat, Channel>, userId: nat, otpId: nat, row: OtpRow,
                     now: int, fault: Fault)
    ensures var o := Redeem(used, clients, userId, otpId, row, now, fault);
            && (o.response.Refused? ==> o.tables == used && o.deliveries == [])
            && (o.response.Paid? ==>
                  && o.tables.transactions == used.transactions + [Transaction(used.nextTxId, row.userId,
                                                                   row.receiverId, row.amount, COMPLETED, now)]
                  && o.tables.otps == LinkTransaction(used.otps, otpId, used.nextTxId)
                  && o.tables.attempts == used.attempts
                  && o.response.receipt.transactionId == Some(used.nextTxId))
  {
    var sp, rp := GetUserById(used.users, row.userId), GetUserById(used.users, row.receiverId);
    if sp.Some? && rp.Some? && sp.value.balance >= row.amount && Commits(fault, Some(otpId)) {
      assert sp.value.id == row.userId && rp.value.id == row.receiverId;
    }
  }

  /** Once a challenge is consumed, no later verification of it pays or writes anything. */
  lemma {:induction false} ConsumedChallengeNeverPays(t: Tables, clients: map<nat, Channel>, userId: nat, otpId: nat,
                                   code: string, ip: string, now: int, fault: Fault)
    requires GetOtpById(t.otps, otpId).Some? && GetOtpById(t.otps, otpId).value.verified
    ensures var o := VerifyOtpOutcome(t, clients, userId, otpId, code, ip, now, fault);
            o.response.Refused? && o.tables == t && o.deliveries == []
  {
    var step := StepOf(t, userId, otpId, code, now);
    assert step.Refuse?;
  }

  /** Single use: after any verification that accepted the code (paid or not), every further
      verification of the same challenge is refused and changes nothing. */
  lemma {:induction false} SecondVerifyRefused(t: Tables, c1: map<nat, Channel>, u1: nat, otpId: nat, code1: string, ip1: string,
                            now1: int, f1: Fault,
                            c2: map<nat, Channel>, u2: nat, code2: string, ip2: string, now2: int, f2: Fault)
    requires Good(t) && StepOf(t, u1, otpId, code1, now1).Accepted?
    ensures var o1 := VerifyOtpOutcome(t, c1, u1, otpId, code1, ip1, now1, f1);
            var o2 := VerifyOtpOutcome(o1.tables, c2, u2, otpId, code2, ip2, now2, f2);
            o2.response.Refused? && o2.tables == o1.tables && o2.deliveries == []
  {
    VerifyOtpEffect(t, c1, u1, otpId, code1, ip1, now1, f1);
    var o1 := VerifyOtpOutcome(t, c1, u1, otpId, code1, ip1, now1, f1);
    ConsumedChallengeNeverPays(o1.tables, c2, u2, otpId, code2, ip2, now2, f2);
  }

  /** A wrong code logs one failure and reports how many remain; the one that brings the
      window to `MAX_ATTEMPTS` failures reports the lockout, announces it on the user's stream
      and leaves the account locked. */
  lemma {:induction false} WrongCodeCountsDown(t: Tables, clients: map<nat, Channel>, userId: nat, otpId: nat, code: string,
                            ip: string, now: int, fault: Fault)
    requires StepOf(t, userId, otpId, code, now) == WrongCode
    ensures var o := VerifyOtpOutcome(t, clients, userId, otpId, code, ip, now, fault);
            var n := |RecentFailures(t.attempts, userId, now)|;
            && n < MAX_ATTEMPTS
            && o.tables == t.(attempts := t.attempts + [FailedAttempt(userId, otpId, code, ip, now)])
            && (n + 1 < MAX_ATTEMPTS ==> o.response == Refused(InvalidCode(MAX_ATTEMPTS - n - 1)) && o.deliveries == [])
            && (n + 1 == MAX_ATTEMPTS ==>
                  && o.response == Refused(LockedOut(LOCKOUT_MINUTES))
                  && o.deliveries == Deliveries(clients, userId, OtpLockout(LOCKOUT_MINUTES))
                  && IsUserLockedOut(o.tables.attempts, userId, now).Locked?)
  {
    var a := FailedAttempt(userId, otpId, code, ip, now);
    LockedIffThreeRecent(t.attempts, userId, now);
    RecentAfterLogging(t.attempts, a, userId, now);
    assert InWindowFailure(a, userId, ATTEMPT_WINDOW_MINUTES, now);
    LockedIffThreeRecent(t.attempts + [a], userId, now);
  }

  /** The outcome of a wrong code, written out: the failure is logged, then the window is
      counted for the attempts left or the lockout. */
  lemma WrongCodeOutcome(t: Tables, clients: map<nat, Channel>, userId: nat, otpId: nat, code: string,
                         ip: string, now: int, fault: Fault)
    requires StepOf(t, userId, otpId, code, now) == WrongCode
    ensures var log := t.attempts + [FailedAttempt(userId, otpId, code, ip, now)];
            var left := MAX_ATTEMPTS - |RecentFailures(log, userId, now)|;
            VerifyOtpOutcome(t, clients, userId, otpId, code, ip, now, fault)
            == if left <= 0 then
                 Outcome(t.(attempts := log), Deliveries(clients, userId, OtpLockout(LOCKOUT_MINUTES)),
                         Refused(LockedOut(LOCKOUT_MINUTES)))
               else Outcome(t.(attempts := log), [], Refused(InvalidCode(left)))
  {
  }

  /** `/api/otp-status` asked right after a wrong code agrees with the reply to it: the same
      number of attempts left, or the lock with its full 10 minutes when none is left
      (no attempt on record may lie in the future). */
  lemma {:induction false} StatusAgreesWithWrongCode(t: Tables, clients: map<nat, Channel>, userId: nat, otpId: nat,
                                                     code: string, ip: string, now: int, fault: Fault)
    requires StepOf(t, userId, otpId, code, now) == WrongCode
    requires forall i :: 0 <= i < |t.attempts| ==> t.attempts[i].attemptedAt <= now
    ensures var o := VerifyOtpOutcome(t, clients, userId, otpId, code, ip, now, fault);
            var st := OtpStatus(o.tables.attempts, o.tables.otps, userId, now);
            || (!st.locked && st.attemptsLeft > 0 && o.response == Refused(InvalidCode(st.attemptsLeft)))
            || (st.locked && st.attemptsLeft == 0 && st.lockoutMinutes == LOCKOUT_MINUTES
                && o.response == Refused(LockedOut(LOCKOUT_MINUTES)))
  {
    var a := FailedAttempt(userId, otpId, code, ip, now);
    var log := t.attempts + [a];
    WrongCodeCountsDown(t, clients, userId, otpId, code, ip, now, fault);
    RecentAfterLogging(t.attempts, a, userId, now);
    LockedIffThreeRecent(log, userId, now);
    var recent := RecentFailures(log, userId, now);
    if |recent| >= MAX_ATTEMPTS {
      assert log[|t.attempts|] == a;
      assert a in recent;
      var k :| 0 <= k < |recent| && recent[k] == a;
      assert recent[0].attemptedAt >= a.attemptedAt;
      assert recent[0] in log;
      assert recent[0].attemptedAt == now;
      assert MinutesRoundedUp(LOCKOUT_MINUTES * MINUTE_MS) == LOCKOUT_MINUTES;
    }
  }

  // ----- end-to-end scenarios ---------------------------------------------------

  /** No failed attempt of `userId` is on record. */
  ghost predicate NoFailures(attempts: seq<Attempt>, userId: nat)
  {
    forall i :: 0 <= i < |attempts| ==> attempts[i].success || attempts[i].userId != userId
  }

  /** Three wrong codes within five minutes answer "2 left", "1 left", then the 10-minute
      lockout; a fourth submission, now with the right code, is refused as locked and
      changes nothing. Each step starts from the tables the previous one left. */
  lemma {:induction false} ThreeWrongCodesLock(t: Tables, clients: map<nat, Channel>, u: nat, otpId: nat, wrong: string,
                            right: string, ip: string, n1: int, n2: int, n3: int, n4: int, fault: Fault)
    requires NoFailures(t.attempts, u)
    requires GetOtpById(t.otps, otpId).Some?
    requires var row := GetOtpById(t.otps, otpId).value;
             row.userId == u && !row.verified && row.code == right && n4 <= row.expiresAt
    requires otpId != 0 && wrong != [] && right != [] && wrong != right
    requires n1 <= n2 <= n3 <= n4 < n1 + ATTEMPT_WINDOW_MINUTES * MINUTE_MS
    ensures var t1 := t.(attempts := t.attempts + [FailedAttempt(u, otpId, wrong, ip, n1)]);
            var t2 := t1.(attempts := t1.attempts + [FailedAttempt(u, otpId, wrong, ip, n2)]);
            var t3 := t2.(attempts := t2.attempts + [FailedAttempt(u, otpId, wrong, ip, n3)]);
            && VerifyOtpOutcome(t, clients, u, otpId, wrong, ip, n1, fault) == Outcome(t1, [], Refused(InvalidCode(2)))
            && VerifyOtpOutcome(t1, clients, u, otpId, wrong, ip, n2, fault) == Outcome(t2, [], Refused(InvalidCode(1)))
            && VerifyOtpOutcome(t2, clients, u, otpId, wrong, ip, n3, fault)
               == Outcome(t3, Deliveries(clients, u, OtpLockout(LOCKOUT_MINUTES)), Refused(LockedOut(LOCKOUT_MINUTES)))
            && var o4 := VerifyOtpOutcome(t3, clients, u, otpId, right, ip, n4, fault);
               o4.response.Refused? && o4.response.failure.Locked? && o4.tables == t3
  {
    var t1 := t.(attempts := t.attempts + [FailedAttempt(u, otpId, wrong, ip, n1)]);
    var t2 := t1.(attempts := t1.attempts + [FailedAttempt(u, otpId, wrong, ip, n2)]);
    var t3 := t2.(attempts := t2.attempts + [FailedAttempt(u, otpId, wrong, ip, n3)]);
    ScenarioCounts(t.attempts, u, otpId, wrong, ip, n1, n2, n3, n4);
    WrongCodeStep(t, clients, u, otpId, wrong, ip, n1, fault);
    WrongCodeStep(t1, clients, u, otpId, wrong, ip, n2, fault);
    WrongCodeStep(t2, clients, u, otpId, wrong, ip, n3, fault);
    LockedRefusesEverything(t3, clients, u, otpId, right, ip, n4, fault);
  }

  /** The recent-failure counts along the scenario: 0, 1, 2, then 3 at the fourth submission. */
  lemma {:induction false} ScenarioCounts(l0: seq<Attempt>, u: nat, otpId: nat, wrong: string, ip: string,
                       n1: int, n2: int, n3: int, n4: int)
    requires NoFailures(l0, u)
    requires n1 <= n2 <= n3 <= n4 < n1 + ATTEMPT_WINDOW_MINUTES * MINUTE_MS
    ensures var l1 := l0 + [FailedAttempt(u, otpId, wrong, ip, n1)];
            var l2 := l1 + [FailedAttempt(u, otpId, wrong, ip, n2)];
            var l3 := l2 + [FailedAttempt(u, otpId, wrong, ip, n3)];
            && |RecentFailures(l0, u, n1)| == 0 && |RecentFailures(l1, u, n2)| == 1
            && |RecentFailures(l2, u, n3)| == 2 && |RecentFailures(l3, u, n4)| == 3
  {
    var f1, f2, f3 := FailedAttempt(u, otpId, wrong, ip, n1), FailedAttempt(u, otpId, wrong, ip, n2),
                      FailedAttempt(u, otpId, wrong, ip, n3);
    var l1 := l0 + [f1];
    var l2 := l1 + [f2];
    NoneRecentWithoutFailures(l0, u, n1);
    NoneRecentWithoutFailures(l0, u, n2);
    NoneRecentWithoutFailures(l0, u, n3);
    NoneRecentWithoutFailures(l0, u, n4);
    RecentAfterLogging(l0, f1, u, n2);
    RecentAfterLogging(l0, f1, u, n3);
    RecentAfterLogging(l0, f1, u, n4);
    RecentAfterLogging(l1, f2, u, n3);
    RecentAfterLogging(l1, f2, u, n4);
    RecentAfterLogging(l2, f3, u, n4);
  }

  /** A wrong code for a live challenge of the user, while fewer than `MAX_ATTEMPTS` failures
      are recent, appends one failure and answers by the count. */
  lemma {:induction false} WrongCodeStep(s: Tables, clients: map<nat, Channel>, u: nat, otpId: nat, wrong: string, ip: string,
                      now: int, fault: Fault)
    requires GetOtpById(s.otps, otpId).Some?
    requires var row := GetOtpById(s.otps, otpId).value;
             row.userId == u && !row.verified && row.code != wrong && now <= row.expiresAt
    requires otpId != 0 && wrong != []
    requires |RecentFailures(s.attempts, u, now)| < MAX_ATTEMPTS
    ensures var n := |RecentFailures(s.attempts, u, now)|;
            var next := s.(attempts := s.attempts + [FailedAttempt(u, otpId, wrong, ip, now)]);
            VerifyOtpOutcome(s, clients, u, otpId, wrong, ip, now, fault)
            == if n + 1 < MAX_ATTEMPTS then Outcome(next, [], Refused(InvalidCode(MAX_ATTEMPTS - n - 1)))
               else Outcome(next, Deliveries(clients, u, OtpLockout(LOCKOUT_MINUTES)), Refused(LockedOut(LOCKOUT_MINUTES)))
  {
    LockedIffThreeRecent(s.attempts, u, now);
    WrongCodeCountsDown(s, clients, u, otpId, wrong, ip, now, fault);
  }

  /** While the account is locked, every well-formed submission is refused as locked and
      changes nothing, even with the right code. */
  lemma {:induction false} LockedRefusesEverything(s: Tables, clients: map<nat, Channel>, u: nat, otpId: nat, code: string,
                                ip: string, now: int, fault: Fault)
    requires |RecentFailures(s.attempts, u, now)| >= MAX_ATTEMPTS && otpId != 0 && code != []
    ensures var o := VerifyOtpOutcome(s, clients, u, otpId, code, ip, now, fault);
            o.response.Refused? && o.response.failure.Locked? && o.tables == s && o.deliveries == []
  {
    LockedIffThreeRecent(s.attempts, u, now);
  }

  /** Account A holding 10000 asks for a code to pay 500 to B holding 3000 and submits it
      within five minutes: A is left with 9500, B with 3500, and one completed row of 500
      from A to B is appended. */
  lemma {:induction false} PaymentScenario(t: Tables, clients: map<nat, Channel>, a: User, b: User, code: string, ip: string,
                        n1: int, n2: int)
    requires Good(t) && t.users == [a, b] && a.balance == 10000 && b.balance == 3000
    requires NoFailures(t.attempts, a.id)
    requires code != [] && b.email != [] && n1 <= n2 <= n1 + EXPIRY_MS
    ensures var id := t.nextOtpId;
            var t1 := t.(otps := t.otps + [OtpRow(id, a.id, code, b.id, 500, n1 + EXPIRY_MS, false, None)],
                         nextOtpId := id + 1);
            var r := RequestOtpOutcome(t, clients, a.id, b.email, 500, n1, code);
            var v := VerifyOtpOutcome(t1, clients, a.id, id, code, ip, n2, NoFault);
            && r.tables == t1 && r.response == OtpIssued(id, code, EXPIRY_MINUTES, b.name, b.email)
            && v.response == Paid(Receipt(Some(t.nextTxId), a.name, b.name, 500, 9500))
            && v.tables.users == [a.(balance := 9500), b.(balance := 3500)]
            && v.tables.transactions == t.transactions + [Transaction(t.nextTxId, a.id, b.id, 500, COMPLETED, n2)]
  {
    var id := t.nextOtpId;
    var row := OtpRow(id, a.id, code, b.id, 500, n1 + EXPIRY_MS, false, None);
    var t1 := t.(otps := t.otps + [row], nextOtpId := id + 1);
    GetUserByIdUnique(t.users, 0);
    GetUserByIdUnique(t.users, 1);
    ScenarioRequest(t, clients, a, b, code, n1);
    RequestOtpEffect(t, clients, a.id, b.email, 500, n1, code);
    ScenarioVerify(t1, clients, a, b, row, ip, n2);
  }

  /** The request of the payment scenario issues the challenge. */
  lemma {:induction false} ScenarioRequest(t: Tables, clients: map<nat, Channel>, a: User, b: User, code: string, n1: int)
    requires Good(t) && t.users == [a, b] && a.balance == 10000
    requires NoFailures(t.attempts, a.id) && b.email != []
    ensures RequestOtpCheck(t.users, t.attempts, a.id, b.email, 500, n1) == Cleared(a, b)
  {
    GetUserByIdUnique(t.users, 0);
    GetUserByEmailUnique(t.users, 1);
    NoneRecentWithoutFailures(t.attempts, a.id, n1);
    LockedIffThreeRecent(t.attempts, a.id, n1);
  }

  /** The submission of the payment scenario pays. */
  lemma {:induction false} ScenarioVerify(t1: Tables, clients: map<nat, Channel>, a: User, b: User, row: OtpRow, ip: string, n2: int)
    requires UniqueIds(t1.users) && t1.users == [a, b] && a.balance == 10000 && b.balance == 3000
    requires NoFailures(t1.attempts, a.id)
    requires GetOtpById(t1.otps, row.id) == Some(row) && row.id != 0 && row.code != []
    requires row.userId == a.id && row.receiverId == b.id && row.amount == 500 && !row.verified
    requires n2 <= row.expiresAt
    ensures var v := VerifyOtpOutcome(t1, clients, a.id, row.id, row.code, ip, n2, NoFault);
            && v.response == Paid(Receipt(Some(t1.nextTxId), a.name, b.name, 500, 9500))
            && v.tables.users == [a.(balance := 9500), b.(balance := 3500)]
            && v.tables.transactions == t1.transactions + [Transaction(t1.nextTxId, a.id, b.id, 500, COMPLETED, n2)]
  {
    var id := row.id;
    GetUserByIdUnique(t1.users, 0);
    GetUserByIdUnique(t1.users, 1);
    NoneRecentWithoutFailures(t1.attempts, a.id, n2);
    LockedIffThreeRecent(t1.attempts, a.id, n2);
    assert StepOf(t1, a.id, id, row.code, n2) == Accepted(row);
    var used := t1.(attempts := t1.attempts + [Attempt(a.id, id, row.code, true, ip, n2)],
                    otps := MarkVerified(t1.otps, id));
    assert VerifyOtpOutcome(t1, clients, a.id, id, row.code, ip, n2, NoFault)
           == Redeem(used, clients, a.id, id, row, n2, NoFault);
    ScenarioBalances(used, a, b, Some(id), n2);
  }

  /** Moving 500 from A holding 10000 to B holding 3000 leaves 9500 and 3500. */
  lemma {:induction false} ScenarioBalances(t: Tables, a: User, b: User, link: Option<nat>, now: int)
    requires t.users == [a, b] && a.id != b.id && a.balance == 10000 && b.balance == 3000
    ensures Transferred(t, a, b, 500, link, now).users == [a.(balance := 9500), b.(balance := 3500)]
  {
    TransferBalances(t, a, b, 500, link, now);
    var w := Transferred(t, a, b, 500, link, now).users;
    assert w[0] == a.(balance := 9500) && w[1] == b.(balance := 3500);
  }
}

=== FILE: payments.dfy ===
/**
 * The payment engine of server.js as decisions over values already read:
 * the validation chains of `/api/send-payment`, `/api/request-otp` and
 * `/api/verify-otp`, the transfer unit, and, for each endpoint, the
 * function that gives the response, the new tables and the notifications
 * written. The `Server` module's methods perform these steps one
 * statement at a time and are proved to end where these functions say.
 */
module Payments {
  import opened Common
  import opened Store
  import opened Throttle
  import opened Notify

  /** `OTP_CONFIG.EXPIRY_MINUTES * 60 * 1000` */
  const EXPIRY_MS: int := 300000

  /** The error bodies of the three endpoints. */
  datatype Failure =
    | MissingFields
    | NonPositiveAmount
    | Locked(minutesLeft: nat)
    | SenderNotFound
    | ReceiverNotFound
    | SelfTransfer
    | InsufficientBalance(currentBalance: int, requiredAmount: int)
    | OtpNotFound
    | Forbidden
    | AlreadyUsed
    | Expired
    | InvalidCode(attemptsLeft: int)
    | LockedOut(lockoutMinutes: nat)
    | UserNotFound
    | ExecutionFailure

  /** The HTTP status sent with each failure. */
  function HttpStatus(f: Failure): (r: nat)
    ensures r == 429 <==> f.Locked? || f.LockedOut?
    ensures r == 404 <==> f.SenderNotFound? || f.ReceiverNotFound? || f.OtpNotFound? || f.UserNotFound?
    ensures r == 403 <==> f.Forbidden?
    ensures r == 500 <==> f.ExecutionFailure?
    ensures r != 400 ==> r in {403, 404, 429, 500}
  {
    match f
    case Locked(_) => 429
    case LockedOut(_) => 429
    case SenderNotFound => 404
    case ReceiverNotFound => 404
    case OtpNotFound => 404
    case UserNotFound => 404
    case Forbidden => 403
    case ExecutionFailure => 500
    case _ => 400
  }

  /** The outcome of a validation chain: a failure, or the two rows the transfer will use. */
  datatype Clearance = Rejected(failure: Failure) | Cleared(payer: User, payee: User)

  /** `!receiverEmail || !amount`, then `amount <= 0` (a JS `0` amount is falsy). */
  function FieldsCheck(receiverEmail: string, amount: int): (r: Option<Failure>)
    ensures r == Some(MissingFields) <==> receiverEmail == [] || amount == 0
    ensures r == Some(NonPositiveAmount) <==> receiverEmail != [] && amount < 0
    ensures r.None? <==> receiverEmail != [] && amount > 0
  {
    if receiverEmail == [] || amount == 0 then Some(MissingFields)
    else if amount <= 0 then Some(NonPositiveAmount)
    else None
  }

  /** Sender by id, receiver by email, not to oneself, enough balance: in that order. */
  function PartiesCheck(users: seq<User>, senderId: nat, receiverEmail: string, amount: int): (r: Clearance)
    ensures var s, v := GetUserById(users, senderId), GetUserByEmail(users, receiverEmail);
            && (r == Rejected(SenderNotFound) <==> s.None?)
            && (r == Rejected(ReceiverNotFound) <==> s.Some? && v.None?)
            && (r == Rejected(SelfTransfer) <==> s.Some? && v.Some? && s.value.id == v.value.id)
            && (r.Rejected? && r.failure.InsufficientBalance? <==>
                  s.Some? && v.Some? && s.value.id != v.value.id && s.value.balance < amount)
            && (r.Rejected? && r.failure.InsufficientBalance? ==>
                  r.failure == InsufficientBalance(s.value.balance, amount))
            && (r.Cleared? <==>
                  s.Some? && v.Some? && s.value.id != v.value.id && s.value.balance >= amount)
            && (r.Cleared? ==> r.payer == s.value && r.payee == v.value)
    ensures r.Cleared? ==> r.payer in users && r.payee in users && r.payer.id == senderId
                           && r.payee.email == receiverEmail && r.payer.id != r.payee.id
                           && r.payer.balance >= amount
  {
    match (GetUserById(users, senderId), GetUserByEmail(users, receiverEmail))
    case (None, _) => Rejected(SenderNotFound)
    case (Some(_), None) => Rejected(ReceiverNotFound)
    case (Some(s), Some(v)) =>
      if s.id == v.id then Rejected(SelfTransfer)
      else if s.balance < amount then Rejected(InsufficientBalance(s.balance, amount))
      else Cleared(s, v)
  }

  /** `/api/send-payment` checks: fields, amount, then the parties (no lockout test). */
  function SendPaymentCheck(users: seq<User>, senderId: nat, receiverEmail: string, amount: int): (r: Clearance)
    ensures FieldsCheck(receiverEmail, amount).Some? ==> r == Rejected(FieldsCheck(receiverEmail, amount).value)
    ensures FieldsCheck(receiverEmail, amount).None? ==> r == PartiesCheck(users, senderId, receiverEmail, amount)
    ensures r.Cleared? ==> 0 < amount <= r.payer.balance
  {
    match FieldsCheck(receiverEmail, amount)
    case Some(f) => Rejected(f)
    case None => PartiesCheck(users, senderId, receiverEmail, amount)
  }

  /** `/api/request-otp` checks: fields, amount, lockout, then the parties. */
  function RequestOtpCheck(users: seq<User>, attempts: seq<Attempt>, senderId: nat, receiverEmail: string,
                           amount: int, now: int): (r: Clearance)
    ensures FieldsCheck(receiverEmail, amount).Some? ==> r == Rejected(FieldsCheck(receiverEmail, amount).value)
    ensures FieldsCheck(receiverEmail, amount).None? && IsUserLockedOut(attempts, senderId, now).Locked? ==>
              r == Rejected(Failure.Locked(IsUserLockedOut(attempts, senderId, now).minutesLeft))
    ensures FieldsCheck(receiverEmail, amount).None? && IsUserLockedOut(attempts, senderId, now).Unlocked? ==>
              r == PartiesCheck(users, senderId, receiverEmail, amount)
    ensures r.Cleared? ==> 0 < amount <= r.payer.balance && IsUserLockedOut(attempts, senderId, now).Unlocked?
  {
    match FieldsCheck(receiverEmail, amount)
    case Some(f) => Rejected(f)
    case None =>
      match IsUserLockedOut(attempts, senderId, now)
      case Locked(m) => Rejected(Failure.Locked(m))
      case Unlocked => PartiesCheck(users, senderId, receiverEmail, amount)
  }

  /** Where `/api/verify-otp` goes after its checks. */
  datatype VerifyStep =
    | Refuse(failure: Failure)   // rejected with nothing recorded
    | ExpiredAttempt             // rejected as expired, one failed attempt recorded
    | WrongCode                  // code mismatch, one failed attempt recorded
    | Accepted(otp: OtpRow)      // code matches: the challenge is consumed

  /** `/api/verify-otp` checks, in order: fields, lockout, not found, owner, already used,
      expired (strictly after `expiresAt`), code mismatch. */
  function VerifyCheck(lock: Lockout, otp: Option<OtpRow>, userId: nat, otpId: nat, code: string, now: int)
    : (r: VerifyStep)
    ensures r == Refuse(MissingFields) <==> otpId == 0 || code == []
    ensures r.Refuse? && r.failure.Locked? <==> otpId != 0 && code != [] && lock.Locked?
    ensures r == Refuse(OtpNotFound) <==> otpId != 0 && code != [] && lock.Unlocked? && otp.None?
    ensures r == Refuse(Forbidden) <==>
              otpId != 0 && code != [] && lock.Unlocked? && otp.Some? && otp.value.userId != userId
    ensures r == Refuse(AlreadyUsed) <==>
              otpId != 0 && code != [] && lock.Unlocked? && otp.Some? && otp.value.userId == userId
              && otp.value.verified
    ensures r == ExpiredAttempt <==>
              otpId != 0 && code != [] && lock.Unlocked? && otp.Some? && otp.value.userId == userId
              && !otp.value.verified && now > otp.value.expiresAt
    ensures r == WrongCode <==>
              otpId != 0 && code != [] && lock.Unlocked? && otp.Some? && otp.value.userId == userId
              && !otp.value.verified && now <= otp.value.expiresAt && otp.value.code != code
    ensures r.Accepted? <==>
              otpId != 0 && code != [] && lock.Unlocked? && otp.Some? && otp.value.userId == userId
              && !otp.value.verified && now <= otp.value.expiresAt && otp.value.code == code
    ensures r.Accepted? ==> r.otp == otp.value
    ensures r.Refuse? && r.failure.Locked? ==> r.failure == Failure.Locked(lock.minutesLeft)
  {
    if otpId == 0 || code == [] then Refuse(MissingFields)
    else if lock.Locked? then Refuse(Failure.Locked(lock.minutesLeft))
    else if otp.None? then Refuse(OtpNotFound)
    else if otp.value.userId != userId then Refuse(Forbidden)
    else if otp.value.verified then Refuse(AlreadyUsed)
    else if now > otp.value.expiresAt then ExpiredAttempt
    else if otp.value.code != code then WrongCode
    else Accepted(otp.value)
  }

  // ----- the transfer unit --------------------------------------------------

  /** The statement inside `BEGIN ... COMMIT` that throws, if any. */
  datatype Fault = NoFault | FailDebit | FailCredit | FailInsert | FailLink | FailCommit

  /** The unit commits when nothing throws; send-payment has no link statement to fail. */
  predicate Commits(fault: Fault, link: Option<nat>)
  {
    fault == NoFault || (fault == FailLink && link.None?)
  }

  /** The committed unit: debit the payer, credit the payee (both from the balances read
      before it began), append one `completed` row and, for an OTP payment, link the row. */
  function Transferred(t: Tables, payer: User, payee: User, amount: int, link: Option<nat>, now: int): (r: Tables)
    ensures |r.users| == |t.users| && r.attempts == t.attempts && r.nextOtpId == t.nextOtpId
    ensures |r.transactions| == |t.transactions| + 1 && r.transactions[..|t.transactions|] == t.transactions
    ensures r.transactions[|t.transactions|].id == t.nextTxId && r.nextTxId == t.nextTxId + 1
    ensures link.None? ==> r.otps == t.otps
  {
    var id := t.nextTxId;
    t.(users := SetBalance(SetBalance(t.users, payer.id, payer.balance - amount), payee.id, payee.balance + amount),
       transactions := t.transactions + [Transaction(id, payer.id, payee.id, amount, COMPLETED, now)],
       nextTxId := id + 1,
       otps := if link.Some? then LinkTransaction(t.otps, link.value, id) else t.otps)
  }

  // ----- endpoints as functions of the state ---------------------------------

  datatype Receipt = Receipt(transactionId: Option<nat>, sender: string, receiver: string,
                             amount: int, newBalance: int)

  datatype PaymentResponse = Paid(receipt: Receipt) | Refused(failure: Failure)

  datatype OtpResponse =
    | OtpIssued(otpId: nat, code: string, expiresIn: nat, recipientName: string, recipientEmail: string)
    | OtpRefused(failure: Failure)

  /** What one request does: the tables after it, what it writes to event streams, its reply. */
  datatype Outcome<R> = Outcome(tables: Tables, deliveries: seq<Delivery>, response: R)

  /** `/api/send-payment` */
  function SendPaymentOutcome(t: Tables, senderId: nat, receiverEmail: string, amount: int, now: int,
                              fault: Fault): (r: Outcome<PaymentResponse>)
    ensures r.deliveries == []
    ensures r.response.Refused? ==> r.tables == t
    ensures r.response.Paid? ==>
              && r.response.receipt.transactionId.None?
              && |r.tables.transactions| == |t.transactions| + 1
              && r.tables.otps == t.otps && r.tables.attempts == t.attempts
  {
    match SendPaymentCheck(t.users, senderId, receiverEmail, amount)
    case Rejected(f) => Outcome(t, [], Refused(f))
    case Cleared(p, q) => DirectTransfer(t, p, q, amount, now, fault)
  }

  /** The unit of a cleared send-payment, without a challenge to link: the receipt carries
      no transaction id and nobody is notified. */
  function DirectTransfer(t: Tables, p: User, q: User, amount: int, now: int, fault: Fault): (r: Outcome<PaymentResponse>)
    ensures r.deliveries == []
    ensures r.response.Paid? <==> Commits(fault, None)
    ensures r.response.Refused? ==> r.tables == t && r.response.failure == ExecutionFailure
    ensures r.response.Paid? ==> r.response.receipt.newBalance == p.balance - amount
  {
    if !Commits(fault, None) then Outcome(t, [], Refused(ExecutionFailure))
    else Outcome(Transferred(t, p, q, amount, None, now), [],
                 Paid(Receipt(None, p.name, q.name, amount, p.balance - amount)))
  }

  /** `/api/request-otp`, with `code` the value `generateOTP` drew. */
  function RequestOtpOutcome(t: Tables, clients: map<nat, Channel>, senderId: nat, receiverEmail: string,
                             amount: int, now: int, code: string): (r: Outcome<OtpResponse>)
    ensures var c := RequestOtpCheck(t.users, t.attempts, senderId, receiverEmail, amount, now);
            && (r.response.OtpIssued? <==> c.Cleared?)
            && (c.Rejected? ==> r.tables == t && r.deliveries == [] && r.response == OtpRefused(c.failure))
    ensures r.response.OtpIssued? ==>
              && r.response.otpId == t.nextOtpId && r.response.code == code
              && r.response.expiresIn == EXPIRY_MINUTES
              && r.tables.users == t.users && r.tables.transactions == t.transactions
              && r.tables.attempts == t.attempts
              && |r.tables.otps| == |t.otps| + 1 && r.tables.otps[..|t.otps|] == t.otps
              && ActiveFor(r.tables.otps[|t.otps|], senderId, now)
  {
    match RequestOtpCheck(t.users, t.attempts, senderId, receiverEmail, amount, now)
    case Rejected(f) => Outcome(t, [], OtpRefused(f))
    case Cleared(p, q) =>
      var id := t.nextOtpId;
      Outcome(t.(otps := t.otps + [OtpRow(id, p.id, code, q.id, amount, now + EXPIRY_MS, false, None)],
                 nextOtpId := id + 1),
              Deliveries(clients, p.id, OtpGenerated(id, code, EXPIRY_MINUTES, q.name, q.email, amount)),
              OtpIssued(id, code, EXPIRY_MINUTES, q.name, q.email))
  }

  /** The failed attempt that an expired or wrong submission appends. */
  function FailedAttempt(userId: nat, otpId: nat, code: string, ip: string, now: int): Attempt
  {
    Attempt(userId, otpId, code, false, ip, now)
  }

  /** `/api/verify-otp` */
  function VerifyOtpOutcome(t: Tables, clients: map<nat, Channel>, userId: nat, otpId: nat, code: string,
                            ip: string, now: int, fault: Fault): (r: Outcome<PaymentResponse>)
    ensures r.response.Paid? ==>
              var o := GetOtpById(t.otps, otpId);
              o.Some? && o.value.userId == userId && o.value.code == code && !o.value.verified
              && now <= o.value.expiresAt
    ensures r.response.Refused? ==> r.tables.users == t.users && r.tables.transactions == t.transactions
  {
    match VerifyCheck(IsUserLockedOut(t.attempts, userId, now), GetOtpById(t.otps, otpId), userId, otpId, code, now)
    case Refuse(f) => Outcome(t, [], Refused(f))
    case ExpiredAttempt =>
      Outcome(t.(attempts := t.attempts + [FailedAttempt(userId, otpId, code, ip, now)]), [], Refused(Expired))
    case WrongCode =>
      var log := t.attempts + [FailedAttempt(userId, otpId, code, ip, now)];
      var left := MAX_ATTEMPTS - |RecentFailures(log, userId, now)|;
      if left <= 0 then
        Outcome(t.(attempts := log), Deliveries(clients, userId, OtpLockout(LOCKOUT_MINUTES)),
                Refused(LockedOut(LOCKOUT_MINUTES)))
      else
        Outcome(t.(attempts := log), [], Refused(InvalidCode(left)))
    case Accepted(row) =>
      Redeem(t.(attempts := t.attempts + [Attempt(userId, otpId, code, true, ip, now)],
                otps := MarkVerified(t.otps, otpId)),
             clients, userId, otpId, row, now, fault)
  }

  /** The rest of `/api/verify-otp` once the code was accepted and the challenge consumed
      (`used`): both parties looked up again, the balance re-checked, then the unit linked to
      the challenge and the two notifications. */
  function Redeem(used: Tables, clients: map<nat, Channel>, userId: nat, otpId: nat, row: OtpRow, now: int,
                  fault: Fault): (r: Outcome<PaymentResponse>)
    ensures r.response.Paid? <==> RedeemCheck(used.users, row).Cleared? && Commits(fault, Some(otpId))
    ensures r.response.Refused? ==> r.tables == used && r.deliveries == []
  {
    match RedeemCheck(used.users, row)
    case Rejected(f) => Outcome(used, [], Refused(f))
    case Cleared(p, q) =>
      if !Commits(fault, Some(otpId)) then Outcome(used, [], Refused(ExecutionFailure))
      else Settled(used, clients, userId, otpId, p, q, row.amount, now)
  }

  /** A committed redemption: the transfer linked to the challenge, `payment_success` to the
      session's user and `payment_received` to the payee, and the receipt. */
  function Settled(used: Tables, clients: map<nat, Channel>, userId: nat, otpId: nat, p: User, q: User,
                   amount: int, now: int): (r: Outcome<PaymentResponse>)
    ensures r.response.Paid? && r.response.receipt.transactionId == Some(used.nextTxId)
    ensures |r.tables.transactions| == |used.transactions| + 1
            && r.tables.transactions[|used.transactions|].id == used.nextTxId
    ensures |r.deliveries| == (if userId in clients then 1 else 0) + (if q.id in clients then 1 else 0)
  {
    var txId := used.nextTxId;
    Outcome(Transferred(used, p, q, amount, Some(otpId), now),
            Deliveries(clients, userId, PaymentSuccess(txId, amount, q.name, p.balance - amount))
            + Deliveries(clients, q.id, PaymentReceived(amount, p.name, q.balance + amount)),
            Paid(Receipt(Some(txId), p.name, q.name, amount, p.balance - amount)))
  }

  /** The re-checks once a challenge is accepted: its owner and its receiver looked up again
      by id (either missing is `User not found`), then the owner's balance against the amount. */
  function RedeemCheck(users: seq<User>, row: OtpRow): (r: Clearance)
    ensures var s, v := GetUserById(users, row.userId), GetUserById(users, row.receiverId);
            && (r == Rejected(UserNotFound) <==> s.None? || v.None?)
            && (r.Rejected? && r.failure.InsufficientBalance? <==>
                  s.Some? && v.Some? && s.value.balance < row.amount)
            && (r.Rejected? && r.failure.InsufficientBalance? ==>
                  r.failure == InsufficientBalance(s.value.balance, row.amount))
            && (r.Cleared? <==> s.Some? && v.Some? && s.value.balance >= row.amount)
            && (r.Cleared? ==> r.payer == s.value && r.payee == v.value)
    ensures r.Cleared? ==> r.payer in users && r.payee in users && r.payer.id == row.userId
                           && r.payee.id == row.receiverId
  {
    match (GetUserById(users, row.userId), GetUserById(users, row.receiverId))
    case (Some(p), Some(q)) =>
      if p.balance < row.amount then Rejected(InsufficientBalance(p.balance, row.amount))
      else Cleared(p, q)
    case _ => Rejected(UserNotFound)
  }

  // ----- transaction history (`/api/transactions`) --------------------------

  datatype Direction = Sent | Received
  datatype Party = Party(name: string, email: string)
  datatype TxView = TxView(id: nat, direction: Direction, amount: int, status: string, timestamp: int,
                           otherParty: Party)

  /** `sent` when the row's sender email is the session's, with the other side as counterparty. */
  function FormatTransaction(row: HistoryRow, userEmail: string): (v: TxView)
    ensures v.direction == Sent <==> row.senderEmail == userEmail
    ensures v.otherParty == if row.senderEmail == userEmail then Party(row.receiverName, row.receiverEmail)
                            else Party(row.senderName, row.senderEmail)
    ensures v.id == row.id && v.amount == row.amount && v.status == row.status && v.timestamp == row.timestamp
  {
    var sent := row.senderEmail == userEmail;
    TxView(row.id, if sent then Sent else Received, row.amount, row.status, row.timestamp,
           if sent then Party(row.receiverName, row.receiverEmail) else Party(row.senderName, row.senderEmail))
  }

  function FormatTransactions(rows: seq<HistoryRow>, userEmail: string): (r: seq<TxView>)
    ensures |r| == |rows|
    ensures forall i :: 0 <= i < |rows| ==> r[i] == FormatTransaction(rows[i], userEmail)
  {
    if rows == [] then [] else [FormatTransaction(rows[0], userEmail)] + FormatTransactions(rows[1..], userEmail)
  }

  /**
   * When the session's email is the user's own and emails are unique, a joined row of one of
   * the user's transactions reads as `sent` exactly when the user is its sender, and its
   * counterparty is the other account, never the user.
   */
  lemma {:induction false} FormatFollowsLedger(users: seq<User>, t: Transaction, row: HistoryRow,
                                               me: User, userEmail: string)
    requires UniqueIds(users) && UniqueEmails(users) && me in users && userEmail == me.email
    requires JoinParties(users, t) == Some(row) && Involves(t, me.id) && t.senderId != t.receiverId
    ensures var v := FormatTransaction(row, userEmail);
            var other := GetUserById(users, if t.senderId == me.id then t.receiverId else t.senderId).value;
            && (v.direction == Sent <==> t.senderId == me.id)
            && v.otherParty == Party(other.name, other.email)
            && v.otherParty.email != userEmail
  {
    var s, r := GetUserById(users, t.senderId).value, GetUserById(users, t.receiverId).value;
    var k :| 0 <= k < |users| && users[k] == me;
    GetUserByIdUnique(users, k);
    if t.senderId == me.id {
      if r.email == userEmail {
        EmailsIdentify(users, r, me);
      }
    } else {
      if s.email == userEmail {
        EmailsIdentify(users, s, me);
      }
    }
  }

  /** `/api/transactions` for the session's user: the newest 50 of the user's transactions,
      newest first, each formatted against the session's email. */
  function TransactionHistory(t: Tables, userId: nat, userEmail: string): (r: seq<TxView>)
    ensures |r| == Min(HISTORY_LIMIT, |Candidates(t.users, t.transactions, userId)|)
    ensures forall i, j :: 0 <= i < j < |r| ==> r[i].timestamp >= r[j].timestamp
    ensures forall v :: v in r ==>
              exists row :: row in Candidates(t.users, t.transactions, userId)
                            && v == FormatTransaction(row, userEmail)
    ensures exists rows :: multiset(rows) <= multiset(Candidates(t.users, t.transactions, userId))
                           && r == FormatTransactions(rows, userEmail)
  {
    HistoryFormatsCandidates(t.users, t.transactions, userId, userEmail);
    FormatTransactions(GetTransactionsByUserId(t.users, t.transactions, userId), userEmail)
  }

  /** The history is the formatting of rows drawn from the user's joined rows, each at most
      as often as it occurs among them. */
  lemma {:induction false} HistoryFormatsCandidates(users: seq<User>, txs: seq<Transaction>, userId: nat,
                                                    userEmail: string)
    ensures var rows := GetTransactionsByUserId(users, txs, userId);
            var c := Candidates(users, txs, userId);
            && |rows| == Min(HISTORY_LIMIT, |c|)
            && multiset(rows) <= multiset(c)
            && (forall v :: v in FormatTransactions(rows, userEmail) ==>
                 exists row :: row in c && v == FormatTransaction(row, userEmail))
  {
    var rows := GetTransactionsByUserId(users, txs, userId);
    HistoryIsNewestFifty(users, txs, userId);
    var r := FormatTransactions(rows, userEmail);
    forall v | v in r
      ensures exists row :: row in Candidates(users, txs, userId) && v == FormatTransaction(row, userEmail)
    {
      var k :| 0 <= k < |r| && r[k] == v;
      assert rows[k] in rows;
    }
  }

  // ----- the invariant every endpoint keeps ---------------------------------

  /** Every challenge moves a positive amount between two different accounts, and only a
      consumed challenge is linked to a transaction. */
  ghost predicate ChallengesWellFormed(otps: seq<OtpRow>)
  {
    forall i :: 0 <= i < |otps| ==>
      otps[i].amount > 0 && otps[i].userId != otps[i].receiverId
      && (otps[i].transactionId.Some? ==> otps[i].verified)
  }

  /** Every ledger row is a completed positive transfer between two different accounts. */
  ghost predicate LedgerWellFormed(txs: seq<Transaction>)
  {
    forall i :: 0 <= i < |txs| ==>
      txs[i].amount > 0 && txs[i].senderId != txs[i].receiverId && txs[i].status == COMPLETED
  }

  ghost predicate Good(t: Tables)
  {
    t.WellFormed() && NonNegative(t.users) && ChallengesWellFormed(t.otps) && LedgerWellFormed(t.transactions)
  }
}

=== FILE: server.dfy ===
/**
 * The Express handlers of server.js over the live database and stream registry.
 * Each handler performs the source's statements in order on `db` and
 * `registry`, and is proved to end in the state, the notifications and the
 * reply that the matching function of `Payments` gives, so the properties
 * proved in `PaymentLemmas` hold of every run.
 */
module Server {
  import opened Common
  import opened Store
  import opened Throttle
  import opened OtpCode
  import opened Notify
  import opened Payments
  import opened PaymentLemmas

  class PaymentServer {
    const db: Database
    const registry: Registry

    /** Between requests no transaction is open and the engine invariant holds. */
    ghost predicate Valid()
      reads this, db
    {
      db.Valid() && db.savepoint.None? && Good(db.Current())
    }

    /** A server over a freshly provisioned database, with nobody subscribed. */
    constructor (users: seq<User>)
      requires UniqueIds(users) && UniqueEmails(users) && NonNegative(users)
      ensures Valid() && fresh(db) && fresh(registry)
      ensures db.Current() == Tables(users, [], 1, [], 1, [])
      ensures registry.clients == map[] && registry.written == []
    {
      db := new Database(users);
      registry := new Registry();
    }

    /** The `BEGIN TRANSACTION ... COMMIT` block, with `ROLLBACK` when the statement that
        `fault` names throws: either the whole unit or nothing. */
    method TransferUnit(payer: User, payee: User, amount: int, link: Option<nat>, now: int, fault: Fault)
      returns (txId: Option<nat>)
      requires db.Valid() && db.savepoint.None?
      modifies db
      ensures db.Valid() && db.savepoint.None?
      ensures Commits(fault, link) ==>
                txId == Some(old(db.nextTxId))
                && db.Current() == Transferred(old(db.Current()), payer, payee, amount, link, now)
      ensures !Commits(fault, link) ==> txId.None? && db.Current() == old(db.Current())
    {
      db.Begin();
      var id, thrown := UnitStatements(payer, payee, amount, link, now, fault);
      if thrown || fault == FailCommit {
        db.Rollback();
        txId := None;
      } else {
        db.Commit();
        txId := Some(id);
      }
    }

    /** The statements inside the unit, stopping at the one that throws. */
    method UnitStatements(payer: User, payee: User, amount: int, link: Option<nat>, now: int, fault: Fault)
      returns (id: nat, thrown: bool)
      requires db.Valid()
      modifies db
      ensures db.Valid() && db.savepoint == old(db.savepoint)
      ensures thrown <==> fault == FailDebit || fault == FailCredit || fault == FailInsert || (fault == FailLink && link.Some?)
      ensures !thrown ==>
                id == old(db.nextTxId) && db.Current() == Transferred(old(db.Current()), payer, payee, amount, link, now)
    {
      id := 0;
      ghost var t0 := db.Current();
      thrown := MoveFunds(payer, payee, amount, fault);
      if !thrown {
        ghost var t1 := db.Current();
        id, thrown := RecordTransfer(payer, payee, amount, link, now, fault);
        if !thrown {
          UnitComposes(t0, t1, db.Current(), payer, payee, amount, link, now);
        }
      }
    }

    /** The two balance updates: the payer's debit, then the payee's credit, each written
        from the balance read before the unit began. */
    method MoveFunds(payer: User, payee: User, amount: int, fault: Fault) returns (thrown: bool)
      requires db.Valid()
      modifies db
      ensures db.Valid() && db.savepoint == old(db.savepoint)
      ensures thrown <==> fault == FailDebit || fault == FailCredit
      ensures !thrown ==>
                db.Current() == old(db.Current()).(users := SetBalance(SetBalance(old(db.users), payer.id, payer.balance - amount),
                                                                       payee.id, payee.balance + amount))
    {
      if fault == FailDebit {
        return true;
      }
      db.UpdateUserBalance(payer.balance - amount, payer.id);
      if fault == FailCredit {
        return true;
      }
      db.UpdateUserBalance(payee.balance + amount, payee.id);
      thrown := false;
    }

    /** The ledger insert, then (for a challenge) the link from the challenge to the new row. */
    method RecordTransfer(payer: User, payee: User, amount: int, link: Option<nat>, now: int, fault: Fault)
      returns (id: nat, thrown: bool)
      requires db.Valid()
      modifies db
      ensures db.Valid() && db.savepoint == old(db.savepoint)
      ensures thrown <==> fault == FailInsert || (fault == FailLink && link.Some?)
      ensures !thrown ==>
                id == old(db.nextTxId)
                && db.Current() == old(db.Current()).(
                     transactions := old(db.transactions) + [Transaction(id, payer.id, payee.id, amount, COMPLETED, now)],
                     nextTxId := id + 1,
                     otps := if link.Some? then LinkTransaction(old(db.otps), link.value, id) else old(db.otps))
    {
      id := 0;
      if fault == FailInsert {
        return id, true;
      }
      id := db.InsertTransaction(payer.id, payee.id, amount, COMPLETED, now);
      if link.Some? {
        if fault == FailLink {
          return id, true;
        }
        db.UpdateOtpTransactionId(link.value, id);
      }
      thrown := false;
    }

    /** The checks of `POST /api/send-payment`, in the handler's order, over the live users. */
    method CheckSendPayment(senderId: nat, receiverEmail: string, amount: int) returns (c: Clearance)
      ensures c == SendPaymentCheck(db.users, senderId, receiverEmail, amount)
    {
      if receiverEmail == [] || amount == 0 {
        return Rejected(MissingFields);
      }
      if amount <= 0 {
        return Rejected(NonPositiveAmount);
      }
      c := CheckParties(senderId, receiverEmail, amount);
    }

    /** Sender by id, receiver by email, not oneself, enough balance. */
    method CheckParties(senderId: nat, receiverEmail: string, amount: int) returns (c: Clearance)
      ensures c == PartiesCheck(db.users, senderId, receiverEmail, amount)
    {
      var sender := GetUserById(db.users, senderId);
      if sender.None? {
        return Rejected(SenderNotFound);
      }
      var receiver := GetUserByEmail(db.users, receiverEmail);
      if receiver.None? {
        return Rejected(ReceiverNotFound);
      }
      var p, q := sender.value, receiver.value;
      if p.id == q.id {
        return Rejected(SelfTransfer);
      }
      if p.balance < amount {
        return Rejected(InsufficientBalance(p.balance, amount));
      }
      c := Cleared(p, q);
    }

    /** `POST /api/send-payment` for the session's `senderId`. */
    method SendPayment(senderId: nat, receiverEmail: string, amount: int, now: int, fault: Fault)
      returns (resp: PaymentResponse)
      requires Valid()
      modifies db
      ensures Valid()
      ensures var o := SendPaymentOutcome(old(db.Current()), senderId, receiverEmail, amount, now, fault);
              db.Current() == o.tables && resp == o.response
    {
      SendPaymentPreserves(db.Current(), senderId, receiverEmail, amount, now, fault);
      resp := HandleSendPayment(senderId, receiverEmail, amount, now, fault);
    }

    /** The handler's statements: the checks, then the unit, then the receipt. */
    method HandleSendPayment(senderId: nat, receiverEmail: string, amount: int, now: int, fault: Fault)
      returns (resp: PaymentResponse)
      requires db.Valid() && db.savepoint.None?
      modifies db
      ensures db.Valid() && db.savepoint.None?
      ensures var o := SendPaymentOutcome(old(db.Current()), senderId, receiverEmail, amount, now, fault);
              db.Current() == o.tables && resp == o.response
    {
      var c := CheckSendPayment(senderId, receiverEmail, amount);
      if c.Rejected? {
        return Refused(c.failure);
      }
      resp := PayDirectly(c.payer, c.payee, amount, now, fault);
    }

    /** The unit of a cleared send-payment, then the receipt (without a transaction id). */
    method PayDirectly(p: User, q: User, amount: int, now: int, fault: Fault) returns (resp: PaymentResponse)
      requires db.Valid() && db.savepoint.None?
      modifies db
      ensures db.Valid() && db.savepoint.None?
      ensures var o := DirectTransfer(old(db.Current()), p, q, amount, now, fault);
              db.Current() == o.tables && resp == o.response
    {
      var txId := TransferUnit(p, q, amount, None, now, fault);
      if txId.None? {
        return Refused(ExecutionFailure);
      }
      resp := Paid(Receipt(None, p.name, q.name, amount, p.balance - amount));
    }

    /** The checks of `POST /api/request-otp`: fields, amount, lockout, then the parties. */
    method CheckRequestOtp(senderId: nat, receiverEmail: string, amount: int, now: int) returns (c: Clearance)
      ensures c == RequestOtpCheck(db.users, db.attempts, senderId, receiverEmail, amount, now)
    {
      if receiverEmail == [] || amount == 0 {
        return Rejected(MissingFields);
      }
      if amount <= 0 {
        return Rejected(NonPositiveAmount);
      }
      var lock := IsUserLockedOut(db.attempts, senderId, now);
      if lock.Locked? {
        return Rejected(Failure.Locked(lock.minutesLeft));
      }
      c := CheckParties(senderId, receiverEmail, amount);
    }

    /** `POST /api/request-otp` for the session's `senderId`. `generateOTP` runs only once
        every check has passed; `drawn` is the code it produced (empty when it did not run). */
    method RequestOtp(senderId: nat, receiverEmail: string, amount: int, now: int)
      returns (resp: OtpResponse, ghost drawn: string)
      requires Valid()
      modifies db, registry
      ensures Valid() && (resp.OtpIssued? ==> IsOtpCode(drawn))
      ensures var o := RequestOtpOutcome(old(db.Current()), old(registry.clients), senderId, receiverEmail,
                                         amount, now, drawn);
              && db.Current() == o.tables && resp == o.response
              && registry.clients == old(registry.clients)
              && registry.written == old(registry.written) + o.deliveries
    {
      var c := CheckRequestOtp(senderId, receiverEmail, amount, now);
      if c.Rejected? {
        return OtpRefused(c.failure), [];
      }
      var code := GenerateOtp();
      drawn := code;
      RequestOtpPreserves(db.Current(), registry.clients, senderId, receiverEmail, amount, now, drawn);
      var p, q := c.payer, c.payee;
      var otpId := db.InsertOtp(p.id, code, q.id, amount, now + EXPIRY_MS);
      registry.Send(p.id, OtpGenerated(otpId, code, EXPIRY_MINUTES, q.name, q.email, amount));
      resp := OtpIssued(otpId, code, EXPIRY_MINUTES, q.name, q.email);
    }

    /** The checks of `POST /api/verify-otp`, in the handler's order, over the live tables. */
    method CheckVerifyOtp(userId: nat, otpId: nat, code: string, now: int) returns (step: VerifyStep)
      ensures step == VerifyCheck(IsUserLockedOut(db.attempts, userId, now), GetOtpById(db.otps, otpId),
                                  userId, otpId, code, now)
    {
      if otpId == 0 || code == [] {
        return Refuse(MissingFields);
      }
      var lock := IsUserLockedOut(db.attempts, userId, now);
      if lock.Locked? {
        return Refuse(Failure.Locked(lock.minutesLeft));
      }
      var otp := GetOtpById(db.otps, otpId);
      if otp.None? {
        return Refuse(OtpNotFound);
      }
      var row := otp.value;
      if row.userId != userId {
        return Refuse(Forbidden);
      }
      if row.verified {
        return Refuse(AlreadyUsed);
      }
      if now > row.expiresAt {
        return ExpiredAttempt;
      }
      if row.code != code {
        return WrongCode;
      }
      step := Accepted(row);
    }

    /** `POST /api/verify-otp` for the session's `userId`, from address `ip`. */
    method VerifyOtp(userId: nat, otpId: nat, code: string, ip: string, now: int, fault: Fault)
      returns (resp: PaymentResponse)
      requires Valid()
      modifies db, registry
      ensures Valid()
      ensures var o := VerifyOtpOutcome(old(db.Current()), old(registry.clients), userId, otpId, code, ip, now, fault);
              && db.Current() == o.tables && resp == o.response
              && registry.clients == old(registry.clients)
              && registry.written == old(registry.written) + o.deliveries
    {
      VerifyOtpPreserves(db.Current(), registry.clients, userId, otpId, code, ip, now, fault);
      resp := HandleVerifyOtp(userId, otpId, code, ip, now, fault);
    }

    /** The handler's statements: the checks, then the attempt log, then the redemption. */
    method HandleVerifyOtp(userId: nat, otpId: nat, code: string, ip: string, now: int, fault: Fault)
      returns (resp: PaymentResponse)
      requires db.Valid() && db.savepoint.None?
      modifies db, registry
      ensures db.Valid() && db.savepoint.None?
      ensures var o := VerifyOtpOutcome(old(db.Current()), old(registry.clients), userId, otpId, code, ip, now, fault);
              && db.Current() == o.tables && resp == o.response
              && registry.clients == old(registry.clients)
              && registry.written == old(registry.written) + o.deliveries
    {
      var step := CheckVerifyOtp(userId, otpId, code, now);
      match step
      case Refuse(f) =>
        resp := Refused(f);
      case ExpiredAttempt =>
        resp := RecordExpired(userId, otpId, code, ip, now, fault);
      case WrongCode =>
        resp := RecordWrongCode(userId, otpId, code, ip, now, fault);
      case Accepted(row) =>
        resp := Consume(userId, otpId, code, ip, now, fault, row);
    }

    /** An expired challenge: the failed attempt is logged and the request refused. */
    method RecordExpired(userId: nat, otpId: nat, code: string, ip: string, now: int, ghost fault: Fault)
      returns (resp: PaymentResponse)
      requires db.Valid() && db.savepoint.None? && StepOf(db.Current(), userId, otpId, code, now) == ExpiredAttempt
      modifies db
      ensures db.Valid() && db.savepoint.None?
      ensures var o := VerifyOtpOutcome(old(db.Current()), registry.clients, userId, otpId, code, ip, now, fault);
              db.Current() == o.tables && resp == o.response && o.deliveries == []
    {
      db.InsertOtpAttempt(userId, otpId, code, false, ip, now);
      resp := Refused(Expired);
    }

    /** A wrong code: the failed attempt is logged, then the failures of the window are
        counted to report the attempts left, or the lockout (also pushed to the stream). */
    method RecordWrongCode(userId: nat, otpId: nat, code: string, ip: string, now: int, ghost fault: Fault)
      returns (resp: PaymentResponse)
      requires db.Valid() && db.savepoint.None? && StepOf(db.Current(), userId, otpId, code, now) == WrongCode
      modifies db, registry
      ensures db.Valid() && db.savepoint.None? && registry.clients == old(registry.clients)
      ensures var o := VerifyOtpOutcome(old(db.Current()), old(registry.clients), userId, otpId, code, ip, now, fault);
              db.Current() == o.tables && resp == o.response && registry.written == old(registry.written) + o.deliveries
    {
      ghost var t0 := db.Current();
      ghost var log := t0.attempts + [FailedAttempt(userId, otpId, code, ip, now)];
      ghost var o := VerifyOtpOutcome(t0, registry.clients, userId, otpId, code, ip, now, fault);
      WrongCodeOutcome(t0, registry.clients, userId, otpId, code, ip, now, fault);
      db.InsertOtpAttempt(userId, otpId, code, false, ip, now);
      assert db.Current() == t0.(attempts := log) == o.tables;
      var recent := GetRecentFailedAttempts(db.attempts, userId, ATTEMPT_WINDOW_MINUTES, now);
      var attemptsLeft := MAX_ATTEMPTS - |recent|;
      assert attemptsLeft == MAX_ATTEMPTS - |RecentFailures(log, userId, now)|;
      if attemptsLeft <= 0 {
        registry.Send(userId, OtpLockout(LOCKOUT_MINUTES));
        assert o.response == Refused(LockedOut(LOCKOUT_MINUTES));
        return Refused(LockedOut(LOCKOUT_MINUTES));
      }
      resp := Refused(InvalidCode(attemptsLeft));
      assert o.response == resp && o.deliveries == [];
    }

    /** An accepted code: the successful attempt is logged, the challenge consumed, then
        redeemed. */
    method Consume(userId: nat, otpId: nat, code: string, ip: string, now: int, fault: Fault, row: OtpRow)
      returns (resp: PaymentResponse)
      requires db.Valid() && db.savepoint.None? && StepOf(db.Current(), userId, otpId, code, now) == Accepted(row)
      modifies db, registry
      ensures db.Valid() && db.savepoint.None? && registry.clients == old(registry.clients)
      ensures var o := VerifyOtpOutcome(old(db.Current()), old(registry.clients), userId, otpId, code, ip, now, fault);
              db.Current() == o.tables && resp == o.response && registry.written == old(registry.written) + o.deliveries
    {
      db.InsertOtpAttempt(userId, otpId, code, true, ip, now);
      db.VerifyOtp(otpId);
      resp := RedeemOtp(userId, otpId, row, now, fault);
    }

    /** The re-checks of verify-OTP after the challenge is consumed. */
    method CheckRedeem(row: OtpRow) returns (c: Clearance)
      ensures c == RedeemCheck(db.users, row)
    {
      var sender := GetUserById(db.users, row.userId);
      var receiver := GetUserById(db.users, row.receiverId);
      if sender.None? || receiver.None? {
        return Rejected(UserNotFound);
      }
      var p, q := sender.value, receiver.value;
      if p.balance < row.amount {
        return Rejected(InsufficientBalance(p.balance, row.amount));
      }
      c := Cleared(p, q);
    }

    /** The rest of verify-OTP once the challenge is consumed: both parties looked up again,
        the balance re-checked, the unit linked to the challenge, then both notifications. */
    method RedeemOtp(userId: nat, otpId: nat, row: OtpRow, now: int, fault: Fault) returns (resp: PaymentResponse)
      requires db.Valid() && db.savepoint.None?
      modifies db, registry
      ensures db.Valid() && db.savepoint.None?
      ensures var o := Redeem(old(db.Current()), old(registry.clients), userId, otpId, row, now, fault);
              && db.Current() == o.tables && resp == o.response
              && registry.clients == old(registry.clients)
              && registry.written == old(registry.written) + o.deliveries
    {
      var c := CheckRedeem(row);
      if c.Rejected? {
        return Refused(c.failure);
      }
      resp := Settle(userId, otpId, c.payer, c.payee, row.amount, now, fault);
    }

    /** The unit linked to challenge `otpId`, then, once it committed, both notifications
        and the receipt. */
    method Settle(userId: nat, otpId: nat, p: User, q: User, amount: int, now: int, fault: Fault)
      returns (resp: PaymentResponse)
      requires db.Valid() && db.savepoint.None?
      modifies db, registry
      ensures db.Valid() && db.savepoint.None? && registry.clients == old(registry.clients)
      ensures Commits(fault, Some(otpId)) ==>
                var o := Settled(old(db.Current()), old(registry.clients), userId, otpId, p, q, amount, now);
                && db.Current() == o.tables && resp == o.response
                && registry.written == old(registry.written) + o.deliveries
      ensures !Commits(fault, Some(otpId)) ==>
                db.Current() == old(db.Current()) && resp == Refused(ExecutionFailure)
                && registry.written == old(registry.written)
    {
      var txId := TransferUnit(p, q, amount, Some(otpId), now, fault);
      if txId.None? {
        return Refused(ExecutionFailure);
      }
      Announce(userId, p, q, amount, txId.value);
      resp := Paid(Receipt(txId, p.name, q.name, amount, p.balance - amount));
    }

    /** `payment_success` to the session's user, then `payment_received` to the payee. */
    method Announce(userId: nat, p: User, q: User, amount: int, txId: nat)
      modifies registry
      ensures registry.clients == old(registry.clients)
      ensures registry.written
              == old(registry.written)
                 + (Deliveries(old(registry.clients), userId, PaymentSuccess(txId, amount, q.name, p.balance - amount))
                    + Deliveries(old(registry.clients), q.id, PaymentReceived(amount, p.name, q.balance + amount)))
    {
      registry.Send(userId, PaymentSuccess(txId, amount, q.name, p.balance - amount));
      registry.Send(q.id, PaymentReceived(amount, p.name, q.balance + amount));
    }

    /** The five-minute timer's `cleanupExpiredOTPs`: deletes the unverified challenges past expiry. */
    method SweepExpiredOtps(now: int)
      requires Valid()
      modifies db
      ensures Valid()
      ensures db.Current() == old(db.Current()).(otps := Filter(old(db.otps), (o: OtpRow) => !Sweepable(o, now)))
    {
      db.CleanupExpiredOtps(now);
      assert ChallengesWellFormed(db.otps) by {
        forall i | 0 <= i < |db.otps|
          ensures db.otps[i].amount > 0 && db.otps[i].userId != db.otps[i].receiverId
                  && (db.otps[i].transactionId.Some? ==> db.otps[i].verified)
        {
          assert db.otps[i] in old(db.otps);
        }
      }
    }
  }

  /** The balance moves followed by the ledger writes make up exactly one transfer. */
  lemma {:induction false} UnitComposes(t0: Tables, t1: Tables, t2: Tables, payer: User, payee: User, amount: int,
                     link: Option<nat>, now: int)
    requires t1 == t0.(users := SetBalance(SetBalance(t0.users, payer.id, payer.balance - amount),
                                           payee.id, payee.balance + amount))
    requires t2 == t1.(transactions := t1.transactions + [Transaction(t1.nextTxId, payer.id, payee.id, amount, COMPLETED, now)],
                       nextTxId := t1.nextTxId + 1,
                       otps := if link.Some? then LinkTransaction(t1.otps, link.value, t1.nextTxId) else t1.otps)
    ensures t2 == Transferred(t0, payer, payee, amount, link, now)
  {
  }
}

=== FILE: sorting.dfy ===
/**
 * `ORDER BY <key> DESC`, as the store's queries use it: a sort by a
 * integer key, largest first. Rows with equal keys may come in any
 * order in SQL; this model keeps them in insertion order.
 */
module Sorting {

  /** Keys never increase from left to right. */
  ghost predicate SortedDesc<T>(s: seq<T>, key: T -> int)
  {
    forall i, j :: 0 <= i < j < |s| ==> key(s[i]) >= key(s[j])
  }

  /** Inserts `x` into a sequence already sorted largest first. */
  function Insert<T>(x: T, s: seq<T>, key: T -> int): (r: seq<T>)
    requires SortedDesc(s, key)
    ensures SortedDesc(r, key)
    ensures multiset(r) == multiset(s) + multiset{x}
    ensures |r| == |s| + 1
  {
    if s == [] || key(x) >= key(s[0]) then
      [x] + s
    else
      var rest := Insert(x, s[1..], key);
      assert s == [s[0]] + s[1..];
      HeadBoundsInsert(s, x, rest, key);
      [s[0]] + rest
  }

  /** Inserting below the head of a sorted sequence keeps everything at most the head. */
  lemma {:induction false} HeadBoundsInsert<T>(s: seq<T>, x: T, rest: seq<T>, key: T -> int)
    requires SortedDesc(s, key) && s != [] && key(x) < key(s[0])
    requires multiset(rest) == multiset(s[1..]) + multiset{x}
    ensures forall k :: 0 <= k < |rest| ==> key(s[0]) >= key(rest[k])
  {
    forall k | 0 <= k < |rest|
      ensures key(s[0]) >= key(rest[k])
    {
      assert rest[k] in multiset(rest);
      if rest[k] != x {
        assert rest[k] in s[1..];
        var j :| 0 <= j < |s[1..]| && s[1..][j] == rest[k];
        assert s[j + 1] == rest[k];
      }
    }
  }

  /** Sorts by `key`, largest first. */
  function SortDesc<T>(s: seq<T>, key: T -> int): (r: seq<T>)
    ensures SortedDesc(r, key)
    ensures multiset(r) == multiset(s)
    ensures |r| == |s|
  {
    if s == [] then []
    else
      assert s == [s[0]] + s[1..];
      Insert(s[0], SortDesc(s[1..], key), key)
  }

  /** Sorting neither adds nor drops an element. */
  lemma {:induction false} SortDescMembers<T>(s: seq<T>, key: T -> int)
    ensures forall x :: x in SortDesc(s, key) <==> x in s
  {
    var r := SortDesc(s, key);
    forall x ensures x in r <==> x in s {
      assert x in r <==> x in multiset(r);
      assert x in s <==> x in multiset(s);
    }
  }

  /** Every element of a sequence sorted largest first is at most its head. */
  lemma {:induction false} HeadIsMax<T>(s: seq<T>, key: T -> int, x: T)
    requires SortedDesc(s, key)
    requires x in s
    ensures key(x) <= key(s[0])
  {
    var j :| 0 <= j < |s| && s[j] == x;
    if j > 0 {
      assert key(s[0]) >= key(s[j]);
    }
  }
}

=== FILE: throttle.dfy ===
/**
 * The attempt throttle of server.js: `OTP_CONFIG`, `isUserLockedOut` and
 * the `/api/otp-status` report. Lock state is never stored; it is
 * recomputed from the attempt log at every call.
 */
module Throttle {
  import opened Common
  import opened Store

  /** `OTP_CONFIG` */
  const EXPIRY_MINUTES: nat := 5
  const MAX_ATTEMPTS: nat := 3
  const LOCKOUT_MINUTES: nat := 10
  const ATTEMPT_WINDOW_MINUTES: nat := 5
  const MINUTE_MS: nat := 60000

  datatype Lockout = Unlocked | Locked(minutesLeft: nat)

  /** `Math.ceil(ms / 60000)` for a positive number of milliseconds. */
  function MinutesRoundedUp(ms: int): (r: nat)
    requires ms > 0
    ensures (r - 1) * 60000 < ms <= r * 60000
    ensures r >= 1
  {
    (ms + 59999) / 60000
  }

  /** `getRecentFailedAttempts(userId, OTP_CONFIG.ATTEMPT_WINDOW_MINUTES)` */
  function RecentFailures(attempts: seq<Attempt>, userId: nat, now: int): seq<Attempt>
  {
    GetRecentFailedAttempts(attempts, userId, ATTEMPT_WINDOW_MINUTES, now)
  }

  /** The attempts the throttle counts are exactly the user's failures of the last
      `ATTEMPT_WINDOW_MINUTES`, newest first. */
  lemma RecentFailuresExact(attempts: seq<Attempt>, userId: nat, now: int)
    ensures var r := RecentFailures(attempts, userId, now);
            && (forall a :: a in r <==>
                  a in attempts && a.userId == userId && !a.success
                  && now - ATTEMPT_WINDOW_MINUTES * MINUTE_MS < a.attemptedAt)
            && (forall i, j :: 0 <= i < j < |r| ==> r[i].attemptedAt >= r[j].attemptedAt)
  {
  }

  /** `isUserLockedOut`: at least `MAX_ATTEMPTS` recent failures and still within
      `LOCKOUT_MINUTES` of the newest one; `minutesLeft` rounds the rest up. */
  function IsUserLockedOut(attempts: seq<Attempt>, userId: nat, now: int): (r: Lockout)
    ensures var recent := RecentFailures(attempts, userId, now);
            r.Locked? <==> |recent| >= MAX_ATTEMPTS
                           && now < recent[0].attemptedAt + LOCKOUT_MINUTES * MINUTE_MS
    ensures r.Locked? ==>
              var until := RecentFailures(attempts, userId, now)[0].attemptedAt + LOCKOUT_MINUTES * MINUTE_MS;
              r.minutesLeft == MinutesRoundedUp(until - now)
  {
    var recent := RecentFailures(attempts, userId, now);
    if |recent| >= MAX_ATTEMPTS then
      var lockoutUntil := recent[0].attemptedAt + LOCKOUT_MINUTES * MINUTE_MS;
      if now < lockoutUntil then Locked(MinutesRoundedUp(lockoutUntil - now)) else Unlocked
    else
      Unlocked
  }

  /** Because the counting window (5 minutes) is shorter than the lockout (10 minutes), the
      newest recent failure is always less than 10 minutes old: the account is locked exactly
      when it has `MAX_ATTEMPTS` failures in the window, and the 10-minute test never decides. */
  lemma {:induction false} LockedIffThreeRecent(attempts: seq<Attempt>, userId: nat, now: int)
    ensures IsUserLockedOut(attempts, userId, now).Locked?
            <==> |RecentFailures(attempts, userId, now)| >= MAX_ATTEMPTS
  {
    var recent := RecentFailures(attempts, userId, now);
    if |recent| >= MAX_ATTEMPTS {
      assert recent[0] in recent;
      assert InWindowFailure(recent[0], userId, ATTEMPT_WINDOW_MINUTES, now);
    }
  }

  /** Logging one more attempt adds one to the recent failures exactly when it is itself
      a failure of that user inside the window. */
  lemma {:induction false} RecentAfterLogging(attempts: seq<Attempt>, a: Attempt, userId: nat, now: int)
    ensures |RecentFailures(attempts + [a], userId, now)|
            == |RecentFailures(attempts, userId, now)|
               + (if InWindowFailure(a, userId, ATTEMPT_WINDOW_MINUTES, now) then 1 else 0)
  {
    FilterAppend(attempts, a, (x: Attempt) => InWindowFailure(x, userId, ATTEMPT_WINDOW_MINUTES, now));
  }

  /** No failure of the user on record means none in any window. */
  lemma {:induction false} NoneRecentWithoutFailures(attempts: seq<Attempt>, userId: nat, now: int)
    requires forall i :: 0 <= i < |attempts| ==> attempts[i].success || attempts[i].userId != userId
    ensures |RecentFailures(attempts, userId, now)| == 0
  {
    FilterNone(attempts, (x: Attempt) => InWindowFailure(x, userId, ATTEMPT_WINDOW_MINUTES, now));
  }

  /** When no logged attempt lies in the future, a lock reports between 6 and 10 minutes. */
  lemma {:induction false} LockMinutesBounds(attempts: seq<Attempt>, userId: nat, now: int)
    requires forall i :: 0 <= i < |attempts| ==> attempts[i].attemptedAt <= now
    ensures IsUserLockedOut(attempts, userId, now).Locked? ==>
              ATTEMPT_WINDOW_MINUTES + 1 <= IsUserLockedOut(attempts, userId, now).minutesLeft <= LOCKOUT_MINUTES
  {
    var recent := RecentFailures(attempts, userId, now);
    var r := IsUserLockedOut(attempts, userId, now);
    if r.Locked? {
      assert recent[0] in recent;
      assert InWindowFailure(recent[0], userId, ATTEMPT_WINDOW_MINUTES, now);
      assert recent[0].attemptedAt <= now;
      var d := recent[0].attemptedAt + LOCKOUT_MINUTES * MINUTE_MS - now;
      assert 5 * MINUTE_MS < d <= 10 * MINUTE_MS;
    }
  }

  /** Three failures at one instant lock the account on the spot with the full 10 minutes. */
  lemma {:induction false} LockedAtThirdFailure(userId: nat, t: int)
    ensures IsUserLockedOut(ThreeFailures(userId, t), userId, t) == Locked(LOCKOUT_MINUTES)
  {
    var recent := RecentFailures(ThreeFailures(userId, t), userId, t);
    ThreeFailuresAllRecent(userId, t);
    assert recent[0] in recent;
    assert MinutesRoundedUp(600000) == LOCKOUT_MINUTES;
  }

  /** All three failures are recent at the instant they were logged. */
  lemma {:induction false} ThreeFailuresAllRecent(userId: nat, t: int)
    ensures var recent := RecentFailures(ThreeFailures(userId, t), userId, t);
            |recent| == 3 && forall a :: a in recent ==> a.attemptedAt == t
  {
    var log := ThreeFailures(userId, t);
    FilterAll(log, (a: Attempt) => InWindowFailure(a, userId, ATTEMPT_WINDOW_MINUTES, t));
    assert forall a :: a in log ==> a.attemptedAt == t;
  }

  /** Yet the lock lifts when those failures leave the 5-minute window, not 10 minutes after
      the newest one: 6 minutes later the same account is unlocked. */
  lemma {:induction false} LockLiftsWithWindow(userId: nat, t: int)
    ensures IsUserLockedOut(ThreeFailures(userId, t), userId, t + 6 * MINUTE_MS) == Unlocked
  {
    var log := ThreeFailures(userId, t);
    var later := RecentFailures(log, userId, t + 6 * MINUTE_MS);
    assert forall a :: a in later ==> a in log;
  }

  /** Three wrong codes for one challenge, all logged at instant `t`. */
  function ThreeFailures(userId: nat, t: int): seq<Attempt>
  {
    [Attempt(userId, 1, "1", false, "", t), Attempt(userId, 1, "2", false, "", t),
     Attempt(userId, 1, "3", false, "", t)]
  }

  /** The `/api/otp-status` body. */
  datatype StatusReport = StatusReport(locked: bool, lockoutMinutes: nat, hasActiveOtp: bool,
                                       attemptsLeft: nat, maxAttempts: nat,
                                       configLockoutMinutes: nat, otpExpiryMinutes: nat)

  /** `/api/otp-status`: the lock, an active challenge, and `max(0, 3 - recent failures)`.
      A locked account has no attempts left and an unlocked one has at least one. */
  function OtpStatus(attempts: seq<Attempt>, otps: seq<OtpRow>, userId: nat, now: int): (r: StatusReport)
    ensures r.locked <==> IsUserLockedOut(attempts, userId, now).Locked?
    ensures r.locked ==> r.lockoutMinutes == IsUserLockedOut(attempts, userId, now).minutesLeft
    ensures var recent := RecentFailures(attempts, userId, now);
            r.attemptsLeft == if MAX_ATTEMPTS - |recent| > 0 then MAX_ATTEMPTS - |recent| else 0
    ensures r.maxAttempts == 3 && r.configLockoutMinutes == 10 && r.otpExpiryMinutes == 5
    ensures r.locked <==> r.attemptsLeft == 0
    ensures r.attemptsLeft <= MAX_ATTEMPTS
    ensures r.locked <==> r.lockoutMinutes > 0
    ensures r.hasActiveOtp <==>
              exists i :: 0 <= i < |otps| && otps[i].userId == userId && !otps[i].verified && now <= otps[i].expiresAt
  {
    var lock := IsUserLockedOut(attempts, userId, now);
    var recent := RecentFailures(attempts, userId, now);
    LockedIffThreeRecent(attempts, userId, now);
    StatusReport(lock.Locked?, if lock.Locked? then lock.minutesLeft else 0,
                 GetActiveOtpByUserId(otps, userId, now).Some?,
                 if MAX_ATTEMPTS - |recent| > 0 then MAX_ATTEMPTS - |recent| else 0,
                 MAX_ATTEMPTS, LOCKOUT_MINUTES, EXPIRY_MINUTES)
  }
}
